=== FILE: README.md ===
# KasmVNC client rendering, video-rect and relay bookkeeping in Dafny

This project models the sequential bookkeeping of the KasmVNC web client and proves properties about it. It covers five pieces; pixels, codecs and browser APIs are abstracted away.

- **Canvas worker** (`core/canvas.js`):
  - Four per-kind queues of drawing operations (draw, put, copy, fill), keyed by frame id.
  - The set of pending frame ids and the cached fill style `oldFill`.
  - The animation-frame tick `processQ`, which reports whether the worker is full and then drains the first pending frame onto the canvas.
  - The canvas is represented by the log of calls made on its 2D context.
  - Each message to the worker is a method call. Each tick is a call of `Tick`. Each resolution of an image decode is an explicit call of `DecodeCompletes`.
- **Display** (`core/display.js`):
  - The main-thread object that owns the framebuffer and viewport sizes and keeps the worker's `full` flag.
  - It posts drawing requests to the worker; every `postMessage` appends to an outbox.
- **KasmVideo rect decoder** (`core/decoders/kasmvideo.js`):
  - A resumable parser over the socket's receive queue: a control byte, then a 1 to 3 byte length (two 7-bit groups, then a final 8-bit byte), then the payload.
  - `_ctl` and `_len` carry its state between calls.
- **Print relay** (`app/printer.js`): the START / CHUNK / END packet state machine that gathers a document and prints it.
- **Security-key relay helpers** (`core/output/authenticator.js`): the `DD/MM/YY HH:MM:SS` date stamp, the user name built from it, and the packet-id dispatch.

The modules are:

- `Wrappers`: Option, Result and map lookup.
- `Bytes`: bytes and big-endian `getUint32`.
- `Text`: JavaScript `String(n)` and string comparison.
- `FrameOrder`: the default sort order of frame ids.
- `CanvasWorker`, `Display`, `KasmVideo`, `Printer` and `Authenticator`: one per source file.

## Where the code differs from a cleaner design

The model follows the code, and proves each of these as stated:

- `processQ` sorts frame ids without a comparator, so they are ordered as decimal strings. With frames 9 and 10 pending, 10 is drained first (`FrameOrder.TenBeforeNine`, `CanvasWorker.StringOrderScenario`).
- `processQ` drains a frame even on a tick that reports the worker as full (`CanvasWorker.FullStillDrainsScenario`).
- Within a frame the operations are applied as all draws, then all puts, then all copies, then all fills, whatever order they arrived in.
- An `img` message makes its frame pending at once, but its draw is queued only when the decode resolves. If the frame was drained in between, the draw stays in `drawQ` for good (`CanvasWorker.LateImageScenario`).
- A `resize` message resets the context's fill style to black but not the `oldFill` cache. The next fill in the cached colour is therefore painted black (`CanvasWorker.FillAfterResizeIsBlack`).
- `viewportChangePos` computes clamped deltas and never writes the viewport position.
- `copyImage` names the undeclared `x` and `y`, so it throws a `ReferenceError` and never posts.
- `transparentRect` either returns early or calls the undefined `_asyncRenderQPush`.
- `_readData` waits for three bytes before reading a header, even a one-byte one.
- The print relay never clears `documentData`, so each printed document carries all earlier ones in front of it (`Printer.SecondPrintRepeatsFirst`).

## Model

| member | source | states |
|---|---|---|
| Bytes.GetUint32 | app/printer.js:27-30 | `getUint32(offset, false)` succeeds exactly when four bytes are there; its value is the number below 2^32 whose big-endian encoding is exactly those four bytes, otherwise a RangeError |
| Bytes.U32BE | app/printer.js:30 | a big-endian 32-bit field is below 2^32 |
| Bytes.U32BERoundTrip | app/printer.js:30 | a field written big-endian reads back as the number written, whatever follows it |
| Bytes.U32BEEncodeRead | app/printer.js:30 | writing back what was read gives the same four bytes: each number has exactly one encoding |
| Text.Decimal | core/canvas.js:126 | `String(n)` for an integer below 2^53 is a non-empty string of digits, one digit exactly when n < 10, at most two below 100 and three below 1000 |
| Text.DecimalRoundTrip | core/canvas.js:126 | reading the digits of `String(n)` gives back n |
| Text.DecimalInjective | core/canvas.js:16 | different ids have different decimal strings |
| Text.DecimalSmall | core/output/authenticator.js:9-14 | below 10 `String(n)` is one digit, below 100 it is the tens digit then the units digit |
| Text.DecimalLastTwo | core/output/authenticator.js:11 | the last two characters of `String(n)` for n >= 10 are the digits of n mod 100 |
| Text.StrLess | core/canvas.js:16 | in the string order `sort()` uses, a proper prefix sorts before the longer string, and no string sorts before one of its own prefixes |
| Text.StrLessFirstDifference | core/canvas.js:16 | when neither string is a prefix of the other, the first differing character decides: `a` sorts first exactly when its character there is smaller |
| Text.StrLessIrreflexive | core/canvas.js:16 | no string sorts before itself |
| Text.StrLessTransitive | core/canvas.js:16 | string order is transitive |
| Text.StrLessTotal | core/canvas.js:16 | of two different strings one sorts before the other |
| Text.StrLessAsymmetric | core/canvas.js:16 | two strings never sort before each other |
| FrameOrder.Before | core/canvas.js:16 | an id whose decimal string is a proper prefix of another's sorts first (1 before 10), and among one-digit ids the order is numeric; that 10 sorts before 9 is `FrameOrder.TenBeforeNine` |
| FrameOrder.BeforeIsStrictTotal | core/canvas.js:16 | comparing ids by their decimal strings is a strict total order |
| FrameOrder.FirstExists | core/canvas.js:16 | a non-empty set of pending ids has an element that sorts before all others |
| FrameOrder.FirstUnique | core/canvas.js:16 | that element is unique |
| FrameOrder.First | core/canvas.js:30 | the id `processQ` drains: the one that sorts before all others |
| FrameOrder.SortedHeadIsFirst | core/canvas.js:16-30 | the head of the sorted id array is that first id |
| FrameOrder.Insert | core/canvas.js:16 | inserting an id keeps the array sorted, grows it by one and adds exactly that id |
| FrameOrder.SortIds | core/canvas.js:16 | `Array.from(frames).sort()` holds each pending id once, sorted by string order |
| FrameOrder.DigitsBefore | core/canvas.js:16 | among one-digit ids string order is numeric order |
| FrameOrder.TenBeforeNine | core/canvas.js:16 | with ids 9 and 10 pending, 10 sorts first and is drained first |
| CanvasWorker.RgbString | core/canvas.js:126 | the fill style is `rgb(` ... `)`, at least 10 characters, and at most 16 for channels below 256 |
| CanvasWorker.RgbStringInjective | core/canvas.js:99-126 | different colours give different style strings, so the `!==` test on strings sees exactly the colour changes |
| CanvasWorker.PutPixels | core/canvas.js:144-145 | the pixel data exists exactly when the range fits in the buffer and neither side is 0; it is `width*height*4` bytes long and its i-th byte is the buffer's byte at the start offset plus i |
| CanvasWorker.DrawCalls | core/canvas.js:48-51 | the i-th draw op draws its image at its place and then closes it |
| CanvasWorker.PutCalls | core/canvas.js:61-63 | the i-th put op puts its pixels at its place |
| CanvasWorker.CopyCalls | core/canvas.js:73-88 | each copy op turns smoothing off and copies its region to its new place |
| CanvasWorker.FillCacheAfter | core/canvas.js:99-103 | taking each operation's colour in turn, as the loop does, leaves `oldFill` at the last operation's colour, or unchanged when the list is empty |
| CanvasWorker.FillStep | core/canvas.js:99-103 | one fill operation sets the style to its own colour exactly when that differs from `oldFill`, and always fills its rectangle last |
| CanvasWorker.FillCalls | core/canvas.js:98-104 | filling only sets the fill style and fills rectangles |
| CanvasWorker.FillCallsBounds | core/canvas.js:98-104 | the loop makes one `fillRect` per operation and at most one style change per operation, so between n and 2n calls |
| CanvasWorker.IntendedPaints | core/canvas.js:127-133 | what a fill list asks for: each rectangle in its own `rgb(...)` colour, in push order |
| CanvasWorker.OtherCallsKeepFills | core/canvas.js:33-35 | draws, puts and copies change neither the fill style nor what has been filled |
| CanvasWorker.FillStepPaints | core/canvas.js:99-103 | when `oldFill` agrees with the context, one fill op paints its rectangle in its own colour and leaves that colour set |
| CanvasWorker.FillCacheIsTransparent | core/canvas.js:94-106 | while `oldFill` agrees with the context, `renderFills` paints every rectangle in its own colour in push order, and `oldFill` still agrees afterwards |
| CanvasWorker.AfterFrame | core/canvas.js:33-36 | draining a frame only appends to the canvas log: two calls per draw and per copy, one per put, and one or two per fill |
| CanvasWorker.AfterFramePaints | core/canvas.js:33-36 | draining a frame paints exactly that frame's fills, each in its own colour, and keeps the cache in agreement |
| CanvasWorker.FillAfterResizeIsBlack | core/canvas.js:118-121 | after a resize, a fill in the still-cached colour sets no style and is painted `#000000` |
| CanvasWorker.Worker.constructor | core/canvas.js:1-41 | the worker starts with empty queues, no pending frame, undefined `oldFill`, and one `full: false` from the first `processQ()` |
| CanvasWorker.Worker.Resize | core/canvas.js:118-121 | a resize is logged and leaves the context's fill style at the default |
| CanvasWorker.Worker.Fill | core/canvas.js:123-138 | the frame becomes pending and exactly one fill op joins the tail of its list, the list being created when absent; other frames and kinds are untouched |
| CanvasWorker.Worker.Put | core/canvas.js:140-156 | the frame becomes pending first; one put op is appended exactly when the pixel data can be built, otherwise nothing is queued |
| CanvasWorker.Worker.Img | core/canvas.js:158-163 | the frame becomes pending at once; a decode is started and nothing is queued |
| CanvasWorker.Worker.DecodeCompletes | core/canvas.js:164-176 | when the decode resolves, one draw op joins its frame's draw list; `frames` is not touched |
| CanvasWorker.Worker.DecodeRejected | core/canvas.js:164 | a rejected decode queues nothing |
| CanvasWorker.Worker.Copy | core/canvas.js:179-193 | the frame becomes pending and exactly one copy op joins the tail of its list |
| CanvasWorker.Worker.RenderDraws | core/canvas.js:44-54 | the frame's draw list is removed and its calls are appended in push order; no list means no calls |
| CanvasWorker.Worker.RenderPuts | core/canvas.js:57-66 | the same for put lists |
| CanvasWorker.Worker.RenderCopies | core/canvas.js:69-91 | the same for copy lists |
| CanvasWorker.Worker.RenderFills | core/canvas.js:94-106 | the same for fill lists, setting the style only on a change; `oldFill` ends as the last op's colour, or is unchanged for no list |
| CanvasWorker.Worker.Drain | core/canvas.js:28-37 | the frame leaves `frames` and all four queues, and its draws, puts, copies and fills are applied in that order; other frames keep their lists; while `oldFill` agrees with the context, the frame's fills are painted in their own colours and it still agrees afterwards |
| CanvasWorker.Worker.Tick | core/canvas.js:14-40 | posts `full` = more than 3 pending frames, counted before removal; drains exactly the first id in string order, full or not; changes nothing when no frame is pending; orphaned draw lists stay; while `oldFill` agrees with the context, which it does from the start until a resize, the drained frame's fills are painted in their own colours and it still agrees afterwards |
| CanvasWorker.StringOrderScenario | core/canvas.js:16-31 | with frames 9 and 10 pending, the ticks drain 10 and then 9 |
| CanvasWorker.EarlyTickSetup | core/canvas.js:158-163 | an img's frame can be drained before its decode resolves |
| CanvasWorker.LateImageScenario | core/canvas.js:164-176 | the late draw op stays in `drawQ`, the frame is not pending again, and the next tick drains nothing |
| CanvasWorker.ArrivalOrderSetup | core/canvas.js:123-138 | two fills for one frame around an img for another queue in arrival order |
| CanvasWorker.ArrivalOrderScenario | core/canvas.js:94-106 | one tick drains only the first frame, painting both fills in arrival order in their own colours |
| CanvasWorker.FourPendingSetup | core/canvas.js:158-159 | four img messages make four frames pending |
| CanvasWorker.FourFrames | core/canvas.js:16 | of ids 1 to 4, id 1 sorts first |
| CanvasWorker.FullStillDrainsScenario | core/canvas.js:17-37 | with four frames pending the tick posts `full: true` and still drains frame 1 |
| Display.TargetError | core/display.js:48-58 | the guards at display.js:48-58 fail exactly when the target is falsy, a string, or lacks `getContext`, with the message of the first failing check |
| Display.FitViewport | core/display.js:166-183 | the fitted viewport never exceeds the framebuffer; it is the framebuffer size without clipping or with an undefined argument, and otherwise the requested size capped per side |
| Display.FitViewportIdempotent | core/display.js:185-186 | fitting an already fitted size changes nothing |
| Display.Display.constructor | core/display.js:19-73 | not full, a 0x0 framebuffer, a viewport of the target's size at (0,0), no clipping, and only the canvas transfer posted |
| Display.Display.New | core/display.js:16-82 | `new Display(target)` throws exactly the guard error when there is one, and otherwise builds that initial state (with `new Worker` and `transferControlToOffscreen` taken to succeed) |
| Display.Display.OnFull | core/display.js:34-40 | `_full` and `pending()` become the message value; `onflush` runs exactly when it is false, and runs before `_full` is assigned, so `pending()` inside it still returns the previous flag |
| Display.FlushSeesStaleFlagScenario | core/display.js:31-40 | after `full: true` then `full: false`, the one `onflush` call sees `pending()` return true, and `pending()` is false afterwards |
| Display.Display.ViewportChangePos | core/display.js:129-162 | the clamped deltas keep the right and bottom edges on the framebuffer, and the left and top edges when the viewport fits; with clipping, an in-range move is kept; the viewport is not written |
| Display.Display.ViewportChangeSize | core/display.js:164-202 | the viewport takes the fitted size and then fits the framebuffer; one `resize` is posted exactly when the size changed |
| Display.Display.Resize | core/display.js:218-235 | the framebuffer takes the new size, one `resize` is posted for it, and the viewport is refitted, with a second `resize` only when its size changed |
| Display.Display.SetClipViewport | core/display.js:97-104 | the flag changes and the viewport is refitted to the framebuffer |
| Display.Display.FillRect | core/display.js:237-247 | posts exactly one `fill` message |
| Display.Display.CopyImage | core/display.js:249-262 | throws a ReferenceError and posts nothing |
| Display.Display.ImageRect | core/display.js:264-278 | posts nothing when width or height is 0, otherwise exactly one `img` message |
| Display.Display.DecodedRect | core/display.js:280-290 | posts exactly one `videoframe` message |
| Display.Display.TransparentRect | core/display.js:292-315 | returns quietly exactly when width or height is 0, otherwise throws a TypeError; never posts |
| Display.Display.BlitImage | core/display.js:317-330 | posts exactly one `put` message with the buffer and both offsets |
| Display.FirstResizeScenario | core/display.js:218-235 | a 1024x768 viewport does not fit the initial 0x0 framebuffer; after `resize(800, 600)` it fits, and two `resize` messages were posted |
| KasmVideo.ReceiveQueue.Wait | core/decoders/kasmvideo.js:88 | `rQwait(n)` holds exactly when fewer than n bytes remain |
| KasmVideo.ReceiveQueue.Shift8 | core/decoders/kasmvideo.js:94 | `rQshift8` returns the next byte and advances the cursor by one |
| KasmVideo.ReceiveQueue.ShiftBytes | core/decoders/kasmvideo.js:110 | `rQshiftBytes(n)` returns the next n bytes and advances the cursor by n |
| KasmVideo.HeaderLength | core/decoders/kasmvideo.js:94-103 | the length is at most 0x3FFFFF, and is the first byte itself when its top bit is clear |
| KasmVideo.HeaderSize | core/decoders/kasmvideo.js:94-103 | a header is 1 to 3 bytes |
| KasmVideo.LengthRoundTrip | core/decoders/kasmvideo.js:94-103 | a minimally encoded length reads back as itself, using exactly its own bytes |
| KasmVideo.ReadStep | core/decoders/kasmvideo.js:86-114 | never consumes more than is there; on success the pending length is reset and the data is the bytes just before the new cursor; on `null` at most the header was consumed |
| KasmVideo.ReadWaitsForThreeBytes | core/decoders/kasmvideo.js:87-90 | with fewer than three bytes nothing is parsed or consumed, even for a one-byte header |
| KasmVideo.ReadWithPendingLength | core/decoders/kasmvideo.js:106-113 | with a remembered length the header is skipped; exactly that many bytes are returned once present, else `null` with the length kept |
| KasmVideo.ReadRoundTrip | core/decoders/kasmvideo.js:86-114 | a header followed by its payload is read back as that payload, and nothing after it is taken |
| KasmVideo.ReadResumes | core/decoders/kasmvideo.js:87-108 | a read that returns `null` and resumes on the rest ends exactly where one read on all the bytes would |
| KasmVideo.DecodeStep | core/decoders/kasmvideo.js:25-55 | a finished rect resets `_ctl` to null; an unfinished one keeps it; an illegal `_ctl` throws with `_ctl` and `_len` kept; a pending length only belongs to a VP8 rect |
| KasmVideo.FirstRectIsSkip | core/decoders/kasmvideo.js:17-21 | since the constructor sets `_ctl = 0`, the first rect is a skip that reads nothing |
| KasmVideo.ControlByteHighNibble | core/decoders/kasmvideo.js:26-48 | a control byte is read when `_ctl` is null and only its high nibble counts: 0 skips, 1 reads a VP8 rect, anything else throws |
| KasmVideo.IllegalCtl | core/decoders/kasmvideo.js:46-47 | the illegal-compression message is the fixed text, then the control value in decimal, then `)`: the digits read back as the control value |
| KasmVideo.IllegalCtlSticks | core/decoders/kasmvideo.js:45-54 | an illegal `_ctl` is never reset, so every later call throws again without reading |
| KasmVideo.Vp8RectRoundTrip | core/decoders/kasmvideo.js:65-84 | a whole VP8 rect on the wire is decoded to its payload and consumes exactly its bytes |
| KasmVideo.Vp8RectResumes | core/decoders/kasmvideo.js:50-54 | a VP8 rect split across two calls decodes as if it had arrived at once |
| KasmVideo.Decoder.constructor | core/decoders/kasmvideo.js:17-21 | `_len = 0` and `_ctl = 0` |
| KasmVideo.Decoder.ReadHeader | core/decoders/kasmvideo.js:92-103 | reads the first byte, a second only when the first has its top bit set, and a third only when the second has; it consumes `HeaderSize` bytes and yields `HeaderLength` |
| KasmVideo.Decoder.ReadData | core/decoders/kasmvideo.js:86-114 | `_readData` returns, keeps and consumes what `ReadStep` says |
| KasmVideo.Decoder.Vp8Rect | core/decoders/kasmvideo.js:65-84 | `_vp8Rect` is done exactly when `_readData` returned data |
| KasmVideo.Decoder.DecodeRect | core/decoders/kasmvideo.js:25-55 | `decodeRect` returns, throws, keeps and consumes what `DecodeStep` says |
| Printer.Step | app/printer.js:26-58 | a throwing packet changes nothing and prints nothing; a printed document is the bytes gathered so far |
| Printer.ShortPayloadThrows | app/printer.js:27-30 | under four bytes the id read throws a RangeError and nothing changes |
| Printer.MissingSizeThrows | app/printer.js:33-40 | START and CHUNK without a size field throw before changing anything |
| Printer.UnknownPacketIgnored | app/printer.js:54-56 | an unknown packet id changes nothing and prints nothing |
| Printer.StartRecordsSize | app/printer.js:33-37 | START sets `documentSize`, zeroes `downloadedSize` and keeps `documentData` |
| Printer.ChunkAppends | app/printer.js:39-45 | CHUNK adds its declared size and appends every byte after offset 8, whatever the declared size |
| Printer.EndPrints | app/printer.js:47-52 | END prints the gathered bytes and zeroes both sizes, but keeps the bytes |
| Printer.Run | app/printer.js:26-58 | handling payloads in turn prints at most one document per payload, and every printed document starts with the bytes gathered before the run |
| Printer.StepKeepsData | app/printer.js:26-58 | no packet removes gathered bytes |
| Printer.RunKeepsData | app/printer.js:24-58 | no sequence of packets removes gathered bytes |
| Printer.RunAppend | app/printer.js:26-58 | handling two packet sequences one after the other is handling their concatenation |
| Printer.RunChunk | app/printer.js:39-45 | one more CHUNK appends its bytes and its declared size and prints nothing |
| Printer.ChunksAccumulate | app/printer.js:39-45 | a run of CHUNKs appends all chunks in order, counts their sizes and prints nothing |
| Printer.TransferPrints | app/printer.js:33-52 | START, chunks, END prints the earlier bytes followed by the chunks, and zeroes both sizes |
| Printer.SecondPrintRepeatsFirst | app/printer.js:47-51 | of two documents sent in a row, the second print holds the first document in front of its own |
| Printer.PrintRelay.constructor | app/printer.js:22-24 | both sizes 0, no bytes, nothing printed |
| Printer.PrintRelay.OnUnixRelayData | app/printer.js:26-58 | the handler's new state, print and exception are those of `Step` |
| Authenticator.Pad2 | core/output/authenticator.js:9 | `padStart(2, "0")` keeps strings of two or more and left-pads shorter ones with '0' to two |
| Authenticator.LastTwo | core/output/authenticator.js:11 | `slice(-2)` is a suffix of the string, of length 2, or of the whole length when shorter |
| Authenticator.FieldRoundTrip | core/output/authenticator.js:9-14 | a field below 100 is exactly two digits that read back as its value |
| Authenticator.YearRoundTrip | core/output/authenticator.js:11 | the year field is two digits that read back as the year mod 100 |
| Authenticator.StampLayout | core/output/authenticator.js:15 | six two-character parts joined by the template are 17 characters with each part and separator at a fixed offset |
| Authenticator.Field | core/output/authenticator.js:9-14 | a padded field is at least two characters, exactly two below 100 |
| Authenticator.FormatDate | core/output/authenticator.js:8-16 | the stamp is at least 16 characters; for in-range dates it is 17 with '/' at 2 and 5, ' ' at 8 and ':' at 11 and 14 |
| Authenticator.FormatDateLayout | core/output/authenticator.js:8-16 | for in-range dates the stamp is 17 characters with '/' at 2 and 5, ' ' at 8, ':' at 11 and 14, and its fields read back as day, 0-based month + 1, year mod 100, hours, minutes and seconds |
| Authenticator.FormatDateInjective | core/output/authenticator.js:8-16 | equal stamps of in-range dates mean equal written fields |
| Authenticator.UserName | core/output/authenticator.js:22 | the user name is the fixed 19-character prefix (`admin@kasm.local`, a space, a bar and a space) followed by the whole date stamp |
| Authenticator.UserNameLayout | core/output/authenticator.js:22 | the credential user name is 36 characters ending in the stamp, and identifies the date to the second within a century |
| Authenticator.Dispatch | core/output/authenticator.js:89-123 | under four bytes the id read rejects the returned promise; otherwise id 0 always creates a credential, id 1 always verifies with the bytes after offset 4 as its request, and exactly the other ids are ignored |
| Authenticator.DispatchRoundTrip | core/output/authenticator.js:93-122 | a packet built from an id and a body dispatches on that id, and a verify request gets the body back whole |

## Left out

- `core/displayworker.js`, `core/decoders/image/decoder.js` and `vite.config.js` are not part of this model.
- Pixels: the effects of `drawImage`, `putImageData`, `fillRect` and the copy are not modelled; the canvas is the log of calls made on it.
- The worker's `canvas` message (`core/canvas.js:111-113`) is not modelled; the model behaves as if the canvas had already arrived. Before that, the real worker throws on any drawing.
- Browser scheduling and transport are not modelled: `requestAnimationFrame`, `Worker`, `postMessage` transfer lists, and the concurrency between the page and the worker. Messages, ticks and decode resolutions are sequential method calls.
- The worker's switch has no `videoframe` case, so the messages `Display.Display.DecodedRect` posts are dropped; there is no worker method for them because they change nothing.
- The `performance` message and `_fps`, `_renderMs`, `_prevDrawStyle`, `antiAliasing` and logging are not modelled.
- `blitImageQ` (`core/display.js:332-344`) is not modelled. It posts `byteOffset: arr.byteOffset` of the object it also transfers. For an `ArrayBuffer` that is `undefined`, so `byteOffset + offset` in the worker (`core/canvas.js:144`) is `NaN`, which reads as offset 0: the offset argument is silently ignored. A typed array cannot be transferred, so with one `postMessage` throws.
- Floating point and CSS in `core/display.js` are not modelled: `absX`, `absY`, `autoscale`, `_rescale`, `scale`, `devicePixelRatio` and user-agent checks. Sizes and deltas are integers, so `Math.floor` is the identity.
- `Display.Display.New`: `new Worker("core/canvas.js")` (display.js:29, before the guards) and `transferControlToOffscreen()` (display.js:60, after them) are taken to succeed. A target with `getContext` therefore stands for a fresh canvas that can be transferred. The TypeError for a non-canvas object or a browser without the method, and the InvalidStateError for a canvas that already has a context or was already transferred, are not modelled. Neither is the worker left behind when a guard throws.
- `Display.Display.TransparentRect`: the `createImageBitmap` promise is left out, because the call that follows it always throws.
- `CanvasWorker.Worker.DecodeRejected`: a rejected decode is an unhandled promise rejection in the source; the model only records that nothing is queued.
- `CanvasWorker.Worker.Put`: out-of-range data and zero sizes are the only failures modelled for `Uint8ClampedArray` and `ImageData`. Detached buffers are not.
- VP8 decoding (`EncodedVideoChunk`) is not modelled; the payload of a VP8 rect is only returned.
- `KasmVideo.HeaderLength`: the bitwise `&`, `|` and `<<` are written as `%`, `+` and `*`. This is exact here because the three bit groups do not overlap and the result stays far below 2^31.
- WebAuthn (`navigator.credentials`), `crypto.getRandomValues`, `MessagePack`, `rfb.sendUnixRelayData` and the `Date` object are not modelled. `createCredentials` and `verifyCredentials` are represented only by the action `Authenticator.Dispatch` picks and by `Authenticator.UserName`, and a date is given as its fields.
- `printDocument` is not modelled beyond recording the bytes handed to it: no iframe, Blob or print call.
- `Printer.ChunkAppends`: JavaScript number precision is not modelled, so `downloadedSize` is an unbounded integer. The engine's argument limit on `push(...chunkData)` is also not modelled.
- Sizes given to the worker are unbounded integers; canvas width and height limits are not modelled.
- `Text.Decimal`: frame ids and colour channels are assumed below 2^53. JavaScript writes numbers from 10^21 up with an exponent (`1e+21`), which the model does not.
- `Text.StrLess`: only digit strings are compared. Dafny characters are Unicode scalar values, not the UTF-16 code units `sort()` compares. The two orders agree on digit strings, which are all the model compares.

=== FILE: authenticator.dfy ===
/**
 * The security-key relay: the date stamp put into a new credential's user
 * name, and the choice of what to do with a relay packet from its
 * big-endian 32-bit packet id.
 */
module Authenticator {
  import opened Wrappers
  import opened Bytes
  import opened Text

  const CREDENTIALS_CREATE_REQUEST: nat := 0
  const CREDENTIALS_VERIFY_REQUEST: nat := 1

  /** The parts of a `Date` that `formatDate` reads, in local time. */
  datatype DateFields = DateFields(day: nat, month0: nat, fullYear: int, hours: nat, minutes: nat, seconds: nat)

  /** `String(n)` for any integer number. */
  function IntString(n: int): (s: string)
    ensures 1 <= |s|
  {
    if n < 0 then "-" + Decimal(-n) else Decimal(n)
  }

  /** `s.padStart(2, "0")`. */
  function Pad2(s: string): (p: string)
    ensures |s| >= 2 ==> p == s
    ensures |s| < 2 ==> |p| == 2 && p[2 - |s|..] == s && forall i :: 0 <= i < 2 - |s| ==> p[i] == '0'
  {
    if |s| >= 2 then s else if |s| == 1 then "0" + s else "00"
  }

  /** `s.slice(-2)`: the last two characters, or the whole string when it is shorter. */
  function LastTwo(s: string): (t: string)
    ensures |t| == (if |s| >= 2 then 2 else |s|) && t == s[|s| - |t|..]
  {
    if |s| >= 2 then s[|s| - 2..] else s
  }

  /** A field: `String(n).padStart(2, "0")`, exactly two characters for any value below 100. */
  function Field(n: nat): (f: string)
    ensures 2 <= |f|
    ensures n < 100 ==> |f| == 2
  {
    Pad2(Decimal(n))
  }

  /**
   * `formatDate(date)`: `DD/MM/YY HH:MM:SS`. For in-range fields it is 17
   * characters with its separators at fixed places.
   */
  function FormatDate(d: DateFields): (s: string)
    ensures 16 <= |s|
    ensures InRange(d) ==> |s| == 17 && s[2] == '/' && s[5] == '/' && s[8] == ' ' && s[11] == ':' && s[14] == ':'
  {
    var dd, mm, yy := Field(d.day), Field(d.month0 + 1), LastTwo(IntString(d.fullYear));
    var hh, mi, ss := Field(d.hours), Field(d.minutes), Field(d.seconds);
    var s := dd + "/" + mm + "/" + yy + " " + hh + ":" + mi + ":" + ss;
    if InRange(d) then StampLayout(dd, mm, yy, hh, mi, ss); s else s
  }

  lemma TwoDigits(a: nat, b: nat)
    requires a < 10 && b < 10
    ensures DigitsValue([Digit(a), Digit(b)]) == 10 * a + b
  {
    var t := [Digit(a), Digit(b)];
    assert t[..1] == [Digit(a)] && [Digit(a)][..0] == [];
    assert DigitsValue([Digit(a)]) == a;
    assert DigitsValue(t) == 10 * DigitsValue(t[..1]) + DigitValue(t[1]);
  }

  /** Every field below 100 is written as exactly two digits, and reads back as itself. */
  lemma FieldRoundTrip(n: nat)
    requires n < 100
    ensures |Field(n)| == 2 && IsDigit(Field(n)[0]) && IsDigit(Field(n)[1])
    ensures DigitsValue(Field(n)) == n
  {
    DecimalSmall(n);
    var f := Field(n);
    if n < 10 {
      assert f == [Digit(0), Digit(n)];
      TwoDigits(0, n);
    } else {
      assert f == [Digit(n / 10), Digit(n % 10)];
      TwoDigits(n / 10, n % 10);
    }
  }

  /** The last two decimal digits of `n` make up `n` modulo 100. */
  lemma LastTwoDigits(n: nat)
    ensures n % 100 == 10 * (n / 10 % 10) + n % 10
  {
  }

  /** A year of two digits or more contributes its last two digits: the year modulo 100. */
  lemma YearRoundTrip(year: int)
    requires 10 <= year
    ensures var y := LastTwo(IntString(year));
      |y| == 2 && IsDigit(y[0]) && IsDigit(y[1]) && DigitsValue(y) == year % 100
  {
    DecimalLastTwo(year);
    var tens, units := year / 10 % 10, year % 10;
    var y := LastTwo(IntString(year));
    assert y == [Digit(tens), Digit(units)];
    TwoDigits(tens, units);
    LastTwoDigits(year);
  }

  /** The date fields a real `Date` produces, with a year of at least two digits. */
  predicate InRange(d: DateFields) {
    1 <= d.day <= 31 && d.month0 <= 11 && 10 <= d.fullYear && d.hours <= 23 && d.minutes <= 59 && d.seconds <= 59
  }

  /** A two-character slice is determined by its two characters. */
  lemma PairAt(s: string, i: nat, t: string)
    requires |t| == 2 && i + 2 <= |s| && s[i] == t[0] && s[i + 1] == t[1]
    ensures s[i..i + 2] == t
  {
  }

  /** Six two-character fields joined as `DD/MM/YY HH:MM:SS`: each field and separator sits at a fixed offset. */
  lemma StampLayout(dd: string, mm: string, yy: string, hh: string, mi: string, ss: string)
    requires |dd| == |mm| == |yy| == |hh| == |mi| == |ss| == 2
    ensures var s := dd + "/" + mm + "/" + yy + " " + hh + ":" + mi + ":" + ss;
      && |s| == 17
      && s[2] == '/' && s[5] == '/' && s[8] == ' ' && s[11] == ':' && s[14] == ':'
      && s[0..2] == dd && s[3..5] == mm && s[6..8] == yy
      && s[9..11] == hh && s[12..14] == mi && s[15..17] == ss
  {
    var s := dd + "/" + mm + "/" + yy + " " + hh + ":" + mi + ":" + ss;
    PairAt(s, 0, dd);
    PairAt(s, 3, mm);
    PairAt(s, 6, yy);
    PairAt(s, 9, hh);
    PairAt(s, 12, mi);
    PairAt(s, 15, ss);
  }

  /**
   * For in-range fields the stamp is 17 characters with its separators in
   * fixed places, and each two-digit field reads back as the date part it
   * came from: the month as the 0-based month plus 1, the year modulo 100.
   */
  lemma FormatDateLayout(d: DateFields)
    requires InRange(d)
    ensures var s := FormatDate(d);
      && |s| == 17
      && s[2] == '/' && s[5] == '/' && s[8] == ' ' && s[11] == ':' && s[14] == ':'
      && (forall i :: i in {0, 1, 3, 4, 6, 7, 9, 10, 12, 13, 15, 16} ==> IsDigit(s[i]))
      && DigitsValue(s[0..2]) == d.day
      && DigitsValue(s[3..5]) == d.month0 + 1
      && DigitsValue(s[6..8]) == d.fullYear % 100
      && DigitsValue(s[9..11]) == d.hours
      && DigitsValue(s[12..14]) == d.minutes
      && DigitsValue(s[15..17]) == d.seconds
  {
    FieldRoundTrip(d.day);
    FieldRoundTrip(d.month0 + 1);
    YearRoundTrip(d.fullYear);
    FieldRoundTrip(d.hours);
    FieldRoundTrip(d.minutes);
    FieldRoundTrip(d.seconds);
    var dd, mm, yy := Field(d.day), Field(d.month0 + 1), LastTwo(IntString(d.fullYear));
    var hh, mi, ss := Field(d.hours), Field(d.minutes), Field(d.seconds);
    StampLayout(dd, mm, yy, hh, mi, ss);
  }

  /** Different in-range dates that differ in any written part give different stamps. */
  lemma FormatDateInjective(a: DateFields, b: DateFields)
    requires InRange(a) && InRange(b)
    requires FormatDate(a) == FormatDate(b)
    ensures a.day == b.day && a.month0 == b.month0 && a.fullYear % 100 == b.fullYear % 100
    ensures a.hours == b.hours && a.minutes == b.minutes && a.seconds == b.seconds
  {
    FormatDateLayout(a);
    FormatDateLayout(b);
  }

  /** The fixed part of the user name a new credential is created with. */
  const USER_NAME_PREFIX: string := "admin@kasm.local | "

  /** The user name `createCredentials` builds: the fixed prefix, then the date stamp. */
  function UserName(d: DateFields): (name: string)
    ensures |name| == 19 + |FormatDate(d)|
    ensures name[..19] == "admin@kasm.local | " && name[19..] == FormatDate(d)
  {
    USER_NAME_PREFIX + FormatDate(d)
  }

  /**
   * For in-range dates the user name is 36 characters whose last 17 are the
   * stamp, so two credentials created at different seconds (within a century)
   * get different user names.
   */
  lemma UserNameLayout(a: DateFields, b: DateFields)
    requires InRange(a) && InRange(b)
    ensures |UserName(a)| == 36 && UserName(a)[19..] == FormatDate(a)
    ensures UserName(a) == UserName(b) ==>
      && a.day == b.day && a.month0 == b.month0 && a.fullYear % 100 == b.fullYear % 100
      && a.hours == b.hours && a.minutes == b.minutes && a.seconds == b.seconds
  {
    FormatDateLayout(a);
    assert |USER_NAME_PREFIX| == 19;
    assert UserName(a)[19..] == FormatDate(a);
    if UserName(a) == UserName(b) {
      assert UserName(b)[19..] == FormatDate(b);
      FormatDateInjective(a, b);
    }
  }

  /** What `processRelayData` goes on to do with a packet. */
  datatype RelayAction =
    | CreateCredentials
    | VerifyCredentials(request: seq<byte>)
    | Ignore

  /**
   * The packet-id decode and branch choice of `processRelayData`: a payload
   * too short for an id rejects with a `RangeError`; id 0 creates a
   * credential, id 1 verifies one with the bytes after offset 4 as its
   * request, and any other id does nothing.
   */
  function Dispatch(payload: seq<byte>): (r: Result<RelayAction>)
    ensures r.Thrown? <==> |payload| < 4
    ensures r == Ok(Ignore) <==> 4 <= |payload| && U32BE(payload, 0) > CREDENTIALS_VERIFY_REQUEST
    ensures r.Ok? && r.value.VerifyCredentials? ==> r.value.request == payload[4..]
    ensures 4 <= |payload| && U32BE(payload, 0) == CREDENTIALS_CREATE_REQUEST ==> r == Ok(CreateCredentials)
    ensures 4 <= |payload| && U32BE(payload, 0) == CREDENTIALS_VERIFY_REQUEST ==> r == Ok(VerifyCredentials(payload[4..]))
  {
    match GetUint32(payload, 0)
    case Thrown(e) => Thrown(e)
    case Ok(id) =>
      if id == CREDENTIALS_CREATE_REQUEST then Ok(CreateCredentials)
      else if id == CREDENTIALS_VERIFY_REQUEST then Ok(VerifyCredentials(payload[4..]))
      else Ok(Ignore)
  }

  /** A packet built from an id and a body is dispatched on that id, and a verify request gets the body back whole. */
  lemma DispatchRoundTrip(id: nat, body: seq<byte>)
    requires id < TWO_32
    ensures var r := Dispatch(EncodeU32BE(id) + body);
      && (id == CREDENTIALS_CREATE_REQUEST ==> r == Ok(CreateCredentials))
      && (id == CREDENTIALS_VERIFY_REQUEST ==> r == Ok(VerifyCredentials(body)))
      && (id > CREDENTIALS_VERIFY_REQUEST ==> r == Ok(Ignore))
  {
    U32BERoundTrip(id, body);
    assert (EncodeU32BE(id) + body)[4..] == body;
  }
}

=== FILE: bytes.dfy ===
/** Bytes, and the big-endian 32-bit reads that `DataView.getUint32(offset, false)` performs. */
module Bytes {
  import opened Wrappers

  newtype byte = b: int | 0 <= b < 256

  const TWO_32: int := 0x1_0000_0000

  /** The unsigned big-endian 32-bit number stored at `s[offset..offset + 4]`. */
  function U32BE(s: seq<byte>, offset: nat): (n: nat)
    requires offset + 4 <= |s|
    ensures n < TWO_32
  {
    ((s[offset] as int * 256 + s[offset + 1] as int) * 256 + s[offset + 2] as int) * 256 + s[offset + 3] as int
  }

  /**
   * `new DataView(buffer).getUint32(offset, false)`: a `RangeError` when the
   * four bytes are not all there, and otherwise the number below 2^32 whose
   * big-endian encoding is exactly those four bytes.
   */
  function GetUint32(s: seq<byte>, offset: nat): (r: Result<nat>)
    ensures r.Ok? <==> offset + 4 <= |s|
    ensures r.Ok? ==> r.value < TWO_32 && EncodeU32BE(r.value) == s[offset..offset + 4]
  {
    if offset + 4 <= |s| then
      U32BEEncodeRead(s[offset..]);
      assert U32BE(s[offset..], 0) == U32BE(s, offset);
      Ok(U32BE(s, offset))
    else Thrown("RangeError: Offset is outside the bounds of the DataView")
  }

  /** The four big-endian bytes of `n`, as a sender writes a packet field. */
  function EncodeU32BE(n: nat): (s: seq<byte>)
    requires n < TWO_32
    ensures |s| == 4
  {
    [(n / 0x100_0000) as byte, (n / 0x1_0000 % 256) as byte, (n / 256 % 256) as byte, (n % 256) as byte]
  }

  /** Reading back an encoded field gives the number that was written, whatever follows it. */
  lemma U32BERoundTrip(n: nat, rest: seq<byte>)
    requires n < TWO_32
    ensures U32BE(EncodeU32BE(n) + rest, 0) == n
  {
    var s := EncodeU32BE(n) + rest;
    assert s[0] as int == n / 0x100_0000;
    assert s[1] as int == n / 0x1_0000 % 256;
    assert s[2] as int == n / 256 % 256;
    assert s[3] as int == n % 256;
    assert n / 0x1_0000 == n / 0x100_0000 * 256 + n / 0x1_0000 % 256;
    assert n / 256 == n / 0x1_0000 * 256 + n / 256 % 256;
  }

  /** And encoding what was read gives back the four bytes: the field has exactly one encoding. */
  lemma U32BEEncodeRead(s: seq<byte>)
    requires 4 <= |s|
    ensures EncodeU32BE(U32BE(s, 0)) == s[..4]
  {
    var n := U32BE(s, 0);
    var a, b, c, d := s[0] as nat, s[1] as nat, s[2] as nat, s[3] as nat;
    var x1 := a * 256 + b;
    var x2 := x1 * 256 + c;
    assert n == x2 * 256 + d;
    assert n / 256 == x2 && n % 256 == d;
    assert x2 / 256 == x1 && x2 % 256 == c;
    assert x1 / 256 == a && x1 % 256 == b;
    assert n / 0x1_0000 == x1;
    assert n / 0x100_0000 == a;
    assert EncodeU32BE(n) == [s[0], s[1], s[2], s[3]];
  }
}

=== FILE: canvas_worker.dfy ===
/**
 * The canvas worker: per-kind queues of drawing operations keyed by frame id,
 * the set of pending frame ids, and the tick that reports whether the worker
 * is full and then drains the first pending frame onto the canvas.
 *
 * The canvas itself is represented by the log of calls made on its 2D
 * context (`canvasLog`); pixels are not modelled. Each message the worker
 * receives is a method call, each animation-frame tick a call of `Tick`, and
 * each resolution of an image decode a call of `DecodeCompletes`.
 */
module CanvasWorker {
  import opened Wrappers
  import opened Bytes
  import opened Text
  import opened FrameOrder

  /** With more pending frames than this, a tick reports the worker as full. */
  const MAX_FRAMES_Q: nat := 3

  /** The fill style of a freshly created or reset 2D context. */
  const DEFAULT_FILL_STYLE: string := "#000000"

  /** A decoded image (`result.image` of `ImageDecoder.decode()`); only its identity matters here. */
  type ImageHandle = nat

  datatype DrawOp = DrawOp(image: ImageHandle, x: int, y: int)
  datatype PutOp = PutOp(pixels: seq<byte>, width: nat, height: nat, x: int, y: int)
  datatype CopyOp = CopyOp(oldX: int, oldY: int, w: int, h: int, newX: int, newY: int)
  datatype FillOp = FillOp(fill: string, x: int, y: int, w: int, h: int)

  /** An image decode that has been started for an 'img' message and has not resolved yet. */
  datatype PendingDecode = PendingDecode(frame: FrameId, x: int, y: int)

  /** A call on the canvas or its 2D context. */
  datatype Call =
    | DrawImage(image: ImageHandle, x: int, y: int)
    | CloseImage(image: ImageHandle)
    | PutImageData(pixels: seq<byte>, width: nat, height: nat, x: int, y: int)
    | DisableSmoothing
    | CopyCanvas(oldX: int, oldY: int, w: int, h: int, newX: int, newY: int)
    | SetFillStyle(style: string)
    | FillRect(x: int, y: int, w: int, h: int)
    | ResizeCanvas(canvasWidth: int, canvasHeight: int)

  /** A rectangle filled on the canvas, with the fill style in effect when it was filled. */
  datatype Paint = Paint(style: string, x: int, y: int, w: int, h: int)

  /** The fill style string built for a 'fill' message's colour. */
  function RgbString(r: nat, g: nat, b: nat): (s: string)
    ensures 10 <= |s| && s[..4] == "rgb(" && s[|s| - 1] == ')'
    ensures r < 256 && g < 256 && b < 256 ==> |s| <= 16
  {
    "rgb(" + Decimal(r) + "," + Decimal(g) + "," + Decimal(b) + ")"
  }

  /** The style string as the prefix `rgb(`, then each channel followed by its separator. */
  lemma RgbStringParts(r: nat, g: nat, b: nat)
    ensures RgbString(r, g, b) == "rgb(" + (Decimal(r) + [','] + (Decimal(g) + [','] + (Decimal(b) + [')'])))
  {
  }

  /**
   * Different colours give different style strings, so comparing the strings
   * with `!==` tells exactly whether the colour changed.
   */
  lemma RgbStringInjective(r: nat, g: nat, b: nat, r2: nat, g2: nat, b2: nat)
    requires RgbString(r, g, b) == RgbString(r2, g2, b2)
    ensures r == r2 && g == g2 && b == b2
  {
    RgbStringParts(r, g, b);
    RgbStringParts(r2, g2, b2);
    var last, last2 := Decimal(b) + [')'], Decimal(b2) + [')'];
    var tail, tail2 := Decimal(g) + [','] + last, Decimal(g2) + [','] + last2;
    var rest, rest2 := Decimal(r) + [','] + tail, Decimal(r2) + [','] + tail2;
    assert rest == RgbString(r, g, b)[4..] && rest2 == RgbString(r2, g2, b2)[4..];
    SplitAtSeparator(Decimal(r), tail, Decimal(r2), tail2, ',');
    SplitAtSeparator(Decimal(g), last, Decimal(g2), last2, ',');
    assert Decimal(b) == last[..|last| - 1] && Decimal(b2) == last2[..|last2| - 1];
    DecimalInjective(r, r2);
    DecimalInjective(g, g2);
    DecimalInjective(b, b2);
  }

  /**
   * The pixels of a 'put' message: `new Uint8ClampedArray(buffer, start, width * height * 4)`
   * throws a RangeError when the range runs past the buffer, and `new ImageData(data, width, height)`
   * throws when the data is empty, that is when the width or the height is zero.
   */
  function PutPixels(buffer: seq<byte>, start: nat, width: nat, height: nat): (r: Result<seq<byte>>)
    ensures r.Ok? <==> start + width * height * 4 <= |buffer| && width > 0 && height > 0
    ensures r.Ok? ==> |r.value| == width * height * 4 && forall i :: 0 <= i < |r.value| ==> r.value[i] == buffer[start + i]
  {
    var len := width * height * 4;
    if start + len > |buffer| then Thrown("RangeError: invalid or out-of-range index")
    else if width == 0 || height == 0 then Thrown("InvalidStateError: The input data has zero elements.")
    else Ok(buffer[start..start + len])
  }

  /** The calls `renderDraws` makes for a list of draw operations. */
  function DrawCalls(ops: seq<DrawOp>): (calls: seq<Call>)
    ensures |calls| == 2 * |ops|
    ensures forall i :: 0 <= i < |ops| ==>
      calls[2 * i] == DrawImage(ops[i].image, ops[i].x, ops[i].y) && calls[2 * i + 1] == CloseImage(ops[i].image)
    ensures forall c :: c in calls ==> c.DrawImage? || c.CloseImage?
  {
    if ops == [] then []
    else
      var last := ops[|ops| - 1];
      DrawCalls(ops[..|ops| - 1]) + [DrawImage(last.image, last.x, last.y), CloseImage(last.image)]
  }

  /** The calls `renderPuts` makes for a list of put operations. */
  function PutCalls(ops: seq<PutOp>): (calls: seq<Call>)
    ensures |calls| == |ops|
    ensures forall i :: 0 <= i < |ops| ==>
      calls[i] == PutImageData(ops[i].pixels, ops[i].width, ops[i].height, ops[i].x, ops[i].y)
    ensures forall c :: c in calls ==> c.PutImageData?
  {
    if ops == [] then []
    else
      var last := ops[|ops| - 1];
      PutCalls(ops[..|ops| - 1]) + [PutImageData(last.pixels, last.width, last.height, last.x, last.y)]
  }

  /** The calls `renderCopies` makes for a list of copy operations. */
  function CopyCalls(ops: seq<CopyOp>): (calls: seq<Call>)
    ensures |calls| == 2 * |ops|
    ensures forall i :: 0 <= i < |ops| ==>
      calls[2 * i] == DisableSmoothing &&
      calls[2 * i + 1] == CopyCanvas(ops[i].oldX, ops[i].oldY, ops[i].w, ops[i].h, ops[i].newX, ops[i].newY)
    ensures forall c :: c in calls ==> c.DisableSmoothing? || c.CopyCanvas?
  {
    if ops == [] then []
    else
      var last := ops[|ops| - 1];
      CopyCalls(ops[..|ops| - 1]) + [DisableSmoothing, CopyCanvas(last.oldX, last.oldY, last.w, last.h, last.newX, last.newY)]
  }

  /**
   * The value of `oldFill` after `renderFills` has gone through `ops`,
   * starting from `cache` and taking each operation's colour in turn: the
   * last operation's colour, or the old value for no operations.
   */
  function FillCacheAfter(ops: seq<FillOp>, cache: Option<string>): (after: Option<string>)
    ensures ops == [] ==> after == cache
    ensures ops != [] ==> after == Some(ops[|ops| - 1].fill)
    decreases |ops|
  {
    if ops == [] then cache else FillCacheAfter(ops[1..], Some(ops[0].fill))
  }

  /**
   * The calls for one fill operation: the fill style is set (to the
   * operation's colour) only when it differs from the cached one, and the
   * rectangle is always filled, last.
   */
  function FillStep(op: FillOp, cache: Option<string>): (calls: seq<Call>)
    ensures |calls| == (if cache == Some(op.fill) then 1 else 2)
    ensures calls[|calls| - 1] == FillRect(op.x, op.y, op.w, op.h)
    ensures |calls| == 2 ==> calls[0] == SetFillStyle(op.fill)
  {
    (if cache == Some(op.fill) then [] else [SetFillStyle(op.fill)]) + [FillRect(op.x, op.y, op.w, op.h)]
  }

  /** The calls `renderFills` makes for a list of fill operations, starting from the cached style `cache`. */
  function FillCalls(ops: seq<FillOp>, cache: Option<string>): (calls: seq<Call>)
    ensures forall c :: c in calls ==> c.SetFillStyle? || c.FillRect?
  {
    if ops == [] then []
    else
      var prefix := ops[..|ops| - 1];
      FillCalls(prefix, cache) + FillStep(ops[|ops| - 1], FillCacheAfter(prefix, cache))
  }

  /** `renderFills` fills one rectangle per operation and sets the style at most once per operation. */
  lemma {:induction false} FillCallsBounds(ops: seq<FillOp>, cache: Option<string>)
    ensures |ops| <= |FillCalls(ops, cache)| <= 2 * |ops|
    decreases |ops|
  {
    if ops != [] {
      FillCallsBounds(ops[..|ops| - 1], cache);
    }
  }

  /**
   * The context's call log after a tick drains frame `f` from `log`: draws,
   * then puts, then copies, then fills (canvas.js:33-36).
   */
  function AfterFrame(log: seq<Call>, f: FrameId, drawQ: map<FrameId, seq<DrawOp>>, putQ: map<FrameId, seq<PutOp>>,
                      copyQ: map<FrameId, seq<CopyOp>>, fillQ: map<FrameId, seq<FillOp>>,
                      cache: Option<string>): (after: seq<Call>)
    ensures log <= after
    ensures var ops := 2 * |Lookup(drawQ, f)| + |Lookup(putQ, f)| + 2 * |Lookup(copyQ, f)|;
      |log| + ops + |Lookup(fillQ, f)| <= |after| <= |log| + ops + 2 * |Lookup(fillQ, f)|
  {
    FillCallsBounds(Lookup(fillQ, f), cache);
    log + DrawCalls(Lookup(drawQ, f)) + PutCalls(Lookup(putQ, f)) + CopyCalls(Lookup(copyQ, f)) + FillCalls(Lookup(fillQ, f), cache)
  }

  /** The fill style the context has after the calls in `log`; resizing the canvas resets it. */
  function CurrentFillStyle(log: seq<Call>): string {
    if log == [] then DEFAULT_FILL_STYLE
    else match log[|log| - 1]
      case SetFillStyle(s) => s
      case ResizeCanvas(_, _) => DEFAULT_FILL_STYLE
      case _ => CurrentFillStyle(log[..|log| - 1])
  }

  /** The rectangles filled by the calls in `log`, each with the style it was filled with. */
  function PaintedFills(log: seq<Call>): seq<Paint> {
    if log == [] then []
    else
      var prefix := log[..|log| - 1];
      match log[|log| - 1]
      case FillRect(x, y, w, h) => PaintedFills(prefix) + [Paint(CurrentFillStyle(prefix), x, y, w, h)]
      case _ => PaintedFills(prefix)
  }

  /** What a list of fill operations asks for: each rectangle in its own colour, in order. */
  function IntendedPaints(ops: seq<FillOp>): (paints: seq<Paint>)
    ensures |paints| == |ops|
    ensures forall i :: 0 <= i < |ops| ==> paints[i] == Paint(ops[i].fill, ops[i].x, ops[i].y, ops[i].w, ops[i].h)
  {
    if ops == [] then []
    else
      var last := ops[|ops| - 1];
      IntendedPaints(ops[..|ops| - 1]) + [Paint(last.fill, last.x, last.y, last.w, last.h)]
  }

  lemma IntendedPaintsPair(a: FillOp, b: FillOp)
    ensures IntendedPaints([a, b]) == [Paint(a.fill, a.x, a.y, a.w, a.h), Paint(b.fill, b.x, b.y, b.w, b.h)]
  {
    assert [a, b][..1] == [a];
  }

  /** The cached fill style, when there is one, is the style the context really has. */
  ghost predicate CacheAgrees(cache: Option<string>, log: seq<Call>) {
    cache.Some? ==> cache.value == CurrentFillStyle(log)
  }

  /** None of `calls` sets the fill style, resets the context or fills a rectangle. */
  ghost predicate LeavesFillsAlone(calls: seq<Call>) {
    forall c :: c in calls ==> !c.SetFillStyle? && !c.ResizeCanvas? && !c.FillRect?
  }

  /** Calls that leave fills alone change neither the context's fill style nor what has been filled. */
  lemma {:induction false} OtherCallsKeepFills(log: seq<Call>, extra: seq<Call>)
    requires LeavesFillsAlone(extra)
    ensures CurrentFillStyle(log + extra) == CurrentFillStyle(log)
    ensures PaintedFills(log + extra) == PaintedFills(log)
    decreases |extra|
  {
    if extra != [] {
      var front := extra[..|extra| - 1];
      var all := log + extra;
      var last := extra[|extra| - 1];
      assert last in extra;
      assert all[|all| - 1] == last;
      assert all[..|all| - 1] == log + front;
      assert LeavesFillsAlone(front) by {
        forall c | c in front ensures c in extra { }
      }
      OtherCallsKeepFills(log, front);
      assert CurrentFillStyle(all) == CurrentFillStyle(log + front);
      assert PaintedFills(all) == PaintedFills(log + front);
    } else {
      assert log + extra == log;
    }
  }

  /** One fill step paints its rectangle in its own colour, provided the cache agrees with the context. */
  lemma {:induction false} FillStepPaints(log: seq<Call>, op: FillOp, cache: Option<string>)
    requires CacheAgrees(cache, log)
    ensures PaintedFills(log + FillStep(op, cache)) == PaintedFills(log) + [Paint(op.fill, op.x, op.y, op.w, op.h)]
    ensures CurrentFillStyle(log + FillStep(op, cache)) == op.fill
  {
    var rect := FillRect(op.x, op.y, op.w, op.h);
    if cache == Some(op.fill) {
      assert (log + [rect])[..|log|] == log;
    } else {
      var styled := log + [SetFillStyle(op.fill)];
      assert styled[..|log|] == log;
      assert log + FillStep(op, cache) == styled + [rect];
      assert (styled + [rect])[..|styled|] == styled;
    }
  }

  /**
   * The `oldFill` cache is invisible on the canvas: as long as it agrees with
   * the context's fill style, `renderFills` paints every rectangle of `ops` in
   * that operation's own colour, in push order, and the cache still agrees
   * afterwards.
   */
  lemma {:induction false} FillCacheIsTransparent(log: seq<Call>, ops: seq<FillOp>, cache: Option<string>)
    requires CacheAgrees(cache, log)
    ensures PaintedFills(log + FillCalls(ops, cache)) == PaintedFills(log) + IntendedPaints(ops)
    ensures CacheAgrees(FillCacheAfter(ops, cache), log + FillCalls(ops, cache))
    decreases |ops|
  {
    if ops != [] {
      var prefix := ops[..|ops| - 1];
      var last := ops[|ops| - 1];
      FillCacheIsTransparent(log, prefix, cache);
      var mid := log + FillCalls(prefix, cache);
      FillStepPaints(mid, last, FillCacheAfter(prefix, cache));
      var step := FillStep(last, FillCacheAfter(prefix, cache));
      assert FillCalls(ops, cache) == FillCalls(prefix, cache) + step;
      ConcatAssoc(log, FillCalls(prefix, cache), step);
      var paint := [Paint(last.fill, last.x, last.y, last.w, last.h)];
      assert IntendedPaints(ops) == IntendedPaints(prefix) + paint;
      ConcatAssoc(PaintedFills(log), IntendedPaints(prefix), paint);
      assert FillCacheAfter(ops, cache) == Some(last.fill);
    } else {
      assert log + FillCalls(ops, cache) == log;
    }
  }

  /** Draining a frame paints exactly that frame's fill operations, each in its own colour. */
  lemma {:induction false} AfterFramePaints(log: seq<Call>, f: FrameId, drawQ: map<FrameId, seq<DrawOp>>, putQ: map<FrameId, seq<PutOp>>,
                        copyQ: map<FrameId, seq<CopyOp>>, fillQ: map<FrameId, seq<FillOp>>, cache: Option<string>)
    requires CacheAgrees(cache, log)
    ensures PaintedFills(AfterFrame(log, f, drawQ, putQ, copyQ, fillQ, cache))
         == PaintedFills(log) + IntendedPaints(Lookup(fillQ, f))
    ensures CacheAgrees(FillCacheAfter(Lookup(fillQ, f), cache), AfterFrame(log, f, drawQ, putQ, copyQ, fillQ, cache))
  {
    var draws, puts, copies := DrawCalls(Lookup(drawQ, f)), PutCalls(Lookup(putQ, f)), CopyCalls(Lookup(copyQ, f));
    OtherCallsKeepFills(log, draws);
    OtherCallsKeepFills(log + draws, puts);
    OtherCallsKeepFills(log + draws + puts, copies);
    FillCacheIsTransparent(log + draws + puts + copies, Lookup(fillQ, f), cache);
  }

  /**
   * Resizing the canvas resets the context's fill style to black but leaves
   * `oldFill` alone, so the next fill in the cached colour is painted black.
   */
  lemma {:induction false} FillAfterResizeIsBlack(log: seq<Call>, style: string, width: int, height: int, op: FillOp)
    requires style != DEFAULT_FILL_STYLE && op.fill == style
    ensures PaintedFills(log + [ResizeCanvas(width, height)] + FillCalls([op], Some(style)))
         == PaintedFills(log) + [Paint(DEFAULT_FILL_STYLE, op.x, op.y, op.w, op.h)]
  {
    var resized := log + [ResizeCanvas(width, height)];
    assert resized[..|log|] == log;
    assert FillCalls([op], Some(style)) == FillCalls([], Some(style)) + FillStep(op, Some(style));
    assert resized + FillCalls([op], Some(style)) == resized + [FillRect(op.x, op.y, op.w, op.h)];
    assert (resized + [FillRect(op.x, op.y, op.w, op.h)])[..|resized|] == resized;
  }

  class Worker {
    var drawQ: map<FrameId, seq<DrawOp>>
    var putQ: map<FrameId, seq<PutOp>>
    var copyQ: map<FrameId, seq<CopyOp>>
    var fillQ: map<FrameId, seq<FillOp>>
    /** The ids of frames with work announced and not yet drained. */
    var frames: set<FrameId>
    /** The last fill style set on the context; `None` is JavaScript's `undefined`. */
    var oldFill: Option<string>
    /** Image decodes started for 'img' messages that have not resolved yet, oldest first. */
    var decoding: seq<PendingDecode>
    /** The calls made on the canvas and its context, in order. */
    var canvasLog: seq<Call>
    /** The values of the 'full' messages posted to the main thread, in order. */
    var fullSignals: seq<bool>

    /**
     * Every put, copy and fill list belongs to a pending frame, and no list is
     * empty. Draw lists need not belong to a pending frame: an image whose
     * decode resolves after its frame was drained leaves one behind.
     */
    ghost predicate Valid()
      reads this
    {
      && putQ.Keys <= frames && copyQ.Keys <= frames && fillQ.Keys <= frames
      && (forall f :: f in drawQ ==> drawQ[f] != [])
      && (forall f :: f in putQ ==> putQ[f] != [])
      && (forall f :: f in copyQ ==> copyQ[f] != [])
      && (forall f :: f in fillQ ==> fillQ[f] != [])
    }

    /**
     * The cached `oldFill` agrees with the fill style the context has. It
     * holds from the start and every tick keeps it, so it lasts until the
     * first resize (see `FillAfterResizeIsBlack`).
     */
    ghost predicate FillCacheAgrees()
      reads this`oldFill, this`canvasLog
    {
      CacheAgrees(oldFill, canvasLog)
    }

    /** Loading the worker script: empty queues, and the first `processQ()` call, which finds nothing to drain. */
    constructor ()
      ensures Valid() && FillCacheAgrees()
      ensures drawQ == map[] && putQ == map[] && copyQ == map[] && fillQ == map[]
      ensures frames == {} && oldFill == None && decoding == [] && canvasLog == []
      ensures fullSignals == [false]
    {
      drawQ, putQ, copyQ, fillQ := map[], map[], map[], map[];
      frames := {};
      oldFill := None;
      decoding := [];
      canvasLog := [];
      fullSignals := [false];
    }

    /** A 'resize' message: sets the canvas width and height, which also resets the context. */
    method Resize(width: int, height: int)
      modifies this`canvasLog
      ensures canvasLog == old(canvasLog) + [ResizeCanvas(width, height)]
      ensures CurrentFillStyle(canvasLog) == DEFAULT_FILL_STYLE
    {
      canvasLog := canvasLog + [ResizeCanvas(width, height)];
    }

    /** A 'fill' message: the frame becomes pending and one fill operation joins the tail of its list. */
    method Fill(frame: FrameId, x: int, y: int, width: int, height: int, r: nat, g: nat, b: nat)
      requires Valid()
      modifies this`frames, this`fillQ
      ensures Valid()
      ensures frames == old(frames) + {frame}
      ensures fillQ == old(fillQ)[frame := Lookup(old(fillQ), frame) + [FillOp(RgbString(r, g, b), x, y, width, height)]]
    {
      frames := frames + {frame};
      var op := FillOp(RgbString(r, g, b), x, y, width, height);
      if frame !in fillQ {
        fillQ := fillQ[frame := []];
      }
      fillQ := fillQ[frame := fillQ[frame] + [op]];
    }

    /**
     * A 'put' message: the frame becomes pending first; then the pixels are cut
     * out of the buffer, and only if that does not throw does one put operation
     * join the tail of the frame's list.
     */
    method Put(frame: FrameId, x: int, y: int, width: nat, height: nat, buffer: seq<byte>, byteOffset: nat, offset: nat)
      returns (pushed: bool)
      requires Valid()
      modifies this`frames, this`putQ
      ensures Valid()
      ensures frames == old(frames) + {frame}
      ensures pushed <==> PutPixels(buffer, byteOffset + offset, width, height).Ok?
      ensures pushed ==> putQ == old(putQ)[frame := Lookup(old(putQ), frame) +
        [PutOp(PutPixels(buffer, byteOffset + offset, width, height).value, width, height, x, y)]]
      ensures !pushed ==> putQ == old(putQ)
    {
      frames := frames + {frame};
      var data := PutPixels(buffer, byteOffset + offset, width, height);
      if data.Thrown? {
        return false;
      }
      var op := PutOp(data.value, width, height, x, y);
      if frame !in putQ {
        putQ := putQ[frame := []];
      }
      putQ := putQ[frame := putQ[frame] + [op]];
      pushed := true;
    }

    /** An 'img' message: the frame becomes pending at once, and a decode starts; nothing is queued yet. */
    method Img(frame: FrameId, x: int, y: int)
      requires Valid()
      modifies this`frames, this`decoding
      ensures Valid()
      ensures frames == old(frames) + {frame}
      ensures decoding == old(decoding) + [PendingDecode(frame, x, y)]
    {
      frames := frames + {frame};
      decoding := decoding + [PendingDecode(frame, x, y)];
    }

    /**
     * The decode started by the `k`-th pending 'img' message resolves with
     * `image`: a draw operation joins the tail of its frame's draw list. The
     * frame is not added to `frames` again.
     */
    method DecodeCompletes(k: nat, image: ImageHandle)
      requires Valid()
      requires k < |decoding|
      modifies this`drawQ, this`decoding
      ensures Valid()
      ensures var d := old(decoding[k]);
        drawQ == old(drawQ)[d.frame := Lookup(old(drawQ), d.frame) + [DrawOp(image, d.x, d.y)]]
      ensures decoding == old(decoding[..k] + decoding[k + 1..])
    {
      var d := decoding[k];
      if d.frame !in drawQ {
        drawQ := drawQ[d.frame := []];
      }
      drawQ := drawQ[d.frame := drawQ[d.frame] + [DrawOp(image, d.x, d.y)]];
      decoding := decoding[..k] + decoding[k + 1..];
    }

    /** The decode started by the `k`-th pending 'img' message is rejected: nothing is queued, ever. */
    method DecodeRejected(k: nat)
      requires k < |decoding|
      modifies this`decoding
      ensures decoding == old(decoding[..k] + decoding[k + 1..])
    {
      decoding := decoding[..k] + decoding[k + 1..];
    }

    /** A 'copy' message: the frame becomes pending and one copy operation joins the tail of its list. */
    method Copy(frame: FrameId, oldX: int, oldY: int, w: int, h: int, newX: int, newY: int)
      requires Valid()
      modifies this`frames, this`copyQ
      ensures Valid()
      ensures frames == old(frames) + {frame}
      ensures copyQ == old(copyQ)[frame := Lookup(old(copyQ), frame) + [CopyOp(oldX, oldY, w, h, newX, newY)]]
    {
      frames := frames + {frame};
      var op := CopyOp(oldX, oldY, w, h, newX, newY);
      if frame !in copyQ {
        copyQ := copyQ[frame := []];
      }
      copyQ := copyQ[frame := copyQ[frame] + [op]];
    }

    /** `renderDraws`: removes the frame's draw list and draws (then closes) each image in push order. */
    method RenderDraws(frame: FrameId)
      modifies this`drawQ, this`canvasLog
      ensures drawQ == old(drawQ) - {frame}
      ensures canvasLog == old(canvasLog) + DrawCalls(Lookup(old(drawQ), frame))
    {
      if frame in drawQ {
        var arr := drawQ[frame];
        drawQ := drawQ - {frame};
        for i := 0 to |arr|
          invariant drawQ == old(drawQ) - {frame}
          invariant canvasLog == old(canvasLog) + DrawCalls(arr[..i])
        {
          assert arr[..i + 1][..i] == arr[..i];
          canvasLog := canvasLog + [DrawImage(arr[i].image, arr[i].x, arr[i].y)];
          canvasLog := canvasLog + [CloseImage(arr[i].image)];
        }
        assert arr[..|arr|] == arr;
      } else {
        assert drawQ - {frame} == drawQ;
      }
    }

    /** `renderPuts`: removes the frame's put list and puts each image in push order. */
    method RenderPuts(frame: FrameId)
      modifies this`putQ, this`canvasLog
      ensures putQ == old(putQ) - {frame}
      ensures canvasLog == old(canvasLog) + PutCalls(Lookup(old(putQ), frame))
    {
      if frame in putQ {
        var arr := putQ[frame];
        putQ := putQ - {frame};
        for i := 0 to |arr|
          invariant putQ == old(putQ) - {frame}
          invariant canvasLog == old(canvasLog) + PutCalls(arr[..i])
        {
          assert arr[..i + 1][..i] == arr[..i];
          canvasLog := canvasLog + [PutImageData(arr[i].pixels, arr[i].width, arr[i].height, arr[i].x, arr[i].y)];
        }
        assert arr[..|arr|] == arr;
      } else {
        assert putQ - {frame} == putQ;
      }
    }

    /** `renderCopies`: removes the frame's copy list and copies each region in push order, unsmoothed. */
    method RenderCopies(frame: FrameId)
      modifies this`copyQ, this`canvasLog
      ensures copyQ == old(copyQ) - {frame}
      ensures canvasLog == old(canvasLog) + CopyCalls(Lookup(old(copyQ), frame))
    {
      if frame in copyQ {
        var arr := copyQ[frame];
        copyQ := copyQ - {frame};
        for i := 0 to |arr|
          invariant copyQ == old(copyQ) - {frame}
          invariant canvasLog == old(canvasLog) + CopyCalls(arr[..i])
        {
          assert arr[..i + 1][..i] == arr[..i];
          canvasLog := canvasLog + [DisableSmoothing];
          canvasLog := canvasLog + [CopyCanvas(arr[i].oldX, arr[i].oldY, arr[i].w, arr[i].h, arr[i].newX, arr[i].newY)];
        }
        assert arr[..|arr|] == arr;
      } else {
        assert copyQ - {frame} == copyQ;
      }
    }

    /**
     * `renderFills`: removes the frame's fill list and fills each rectangle in
     * push order, setting the fill style only when it differs from `oldFill`.
     */
    method RenderFills(frame: FrameId)
      modifies this`fillQ, this`oldFill, this`canvasLog
      ensures fillQ == old(fillQ) - {frame}
      ensures canvasLog == old(canvasLog) + FillCalls(Lookup(old(fillQ), frame), old(oldFill))
      ensures oldFill == FillCacheAfter(Lookup(old(fillQ), frame), old(oldFill))
    {
      if frame in fillQ {
        var arr := fillQ[frame];
        fillQ := fillQ - {frame};
        for i := 0 to |arr|
          invariant fillQ == old(fillQ) - {frame}
          invariant canvasLog == old(canvasLog) + FillCalls(arr[..i], old(oldFill))
          invariant oldFill == FillCacheAfter(arr[..i], old(oldFill))
        {
          assert arr[..i + 1][..i] == arr[..i];
          ghost var before := canvasLog;
          ghost var step := FillStep(arr[i], oldFill);
          if Some(arr[i].fill) != oldFill {
            canvasLog := canvasLog + [SetFillStyle(arr[i].fill)];
            oldFill := Some(arr[i].fill);
          }
          canvasLog := canvasLog + [FillRect(arr[i].x, arr[i].y, arr[i].w, arr[i].h)];
          assert canvasLog == before + step;
          ConcatAssoc(old(canvasLog), FillCalls(arr[..i], old(oldFill)), step);
        }
        assert arr[..|arr|] == arr;
      } else {
        assert fillQ - {frame} == fillQ;
      }
    }

    /**
     * The second half of `processQ`: removes frame `f` from the pending set and
     * applies its draws, puts, copies and fills, each kind in push order. While
     * the cache agrees with the context, the frame's fills are painted in their
     * own colours and the cache still agrees afterwards.
     */
    method Drain(f: FrameId)
      requires Valid()
      modifies this`frames, this`drawQ, this`putQ, this`copyQ, this`fillQ, this`oldFill, this`canvasLog
      ensures Valid()
      ensures frames == old(frames) - {f}
      ensures drawQ == old(drawQ) - {f} && putQ == old(putQ) - {f} && copyQ == old(copyQ) - {f} && fillQ == old(fillQ) - {f}
      ensures canvasLog == AfterFrame(old(canvasLog), f, old(drawQ), old(putQ), old(copyQ), old(fillQ), old(oldFill))
      ensures oldFill == FillCacheAfter(Lookup(old(fillQ), f), old(oldFill))
      ensures old(FillCacheAgrees()) ==>
        && FillCacheAgrees()
        && PaintedFills(canvasLog) == PaintedFills(old(canvasLog)) + IntendedPaints(Lookup(old(fillQ), f))
    {
      ghost var log, dq, pq, cq, fq, cache := canvasLog, drawQ, putQ, copyQ, fillQ, oldFill;
      frames := frames - {f};
      RenderDraws(f);
      RenderPuts(f);
      RenderCopies(f);
      RenderFills(f);
      if CacheAgrees(cache, log) {
        AfterFramePaints(log, f, dq, pq, cq, fq, cache);
      }
    }

    /**
     * `processQ`: posts 'full' (more than MAX_FRAMES_Q frames pending, counted
     * before anything is removed), then, full or not, drains the first pending
     * frame in string order.
     */
    method Tick() returns (drained: Option<FrameId>)
      requires Valid()
      modifies this`frames, this`drawQ, this`putQ, this`copyQ, this`fillQ, this`oldFill, this`canvasLog, this`fullSignals
      ensures Valid()
      ensures fullSignals == old(fullSignals) + [|old(frames)| > MAX_FRAMES_Q]
      ensures drained.None? <==> old(frames) == {}
      ensures drained.None? ==>
        && frames == old(frames) && drawQ == old(drawQ) && putQ == old(putQ) && copyQ == old(copyQ)
        && fillQ == old(fillQ) && oldFill == old(oldFill) && canvasLog == old(canvasLog)
      ensures drained.Some? ==> drained.value == First(old(frames))
      ensures drained.Some? ==>
        var f := drained.value;
        && frames == old(frames) - {f}
        && drawQ == old(drawQ) - {f} && putQ == old(putQ) - {f} && copyQ == old(copyQ) - {f} && fillQ == old(fillQ) - {f}
        && canvasLog == AfterFrame(old(canvasLog), f, old(drawQ), old(putQ), old(copyQ), old(fillQ), old(oldFill))
        && oldFill == FillCacheAfter(Lookup(old(fillQ), f), old(oldFill))
      ensures old(FillCacheAgrees()) ==>
        && FillCacheAgrees()
        && PaintedFills(canvasLog) == PaintedFills(old(canvasLog)) + (if drained.Some? then IntendedPaints(Lookup(old(fillQ), drained.value)) else [])
      ensures forall g :: g in old(drawQ) && g !in old(frames) ==> g in drawQ && drawQ[g] == old(drawQ)[g]
    {
      var framesQ := SortIds(frames);
      fullSignals := fullSignals + [|framesQ| > MAX_FRAMES_Q];
      drained := None;
      if |framesQ| > 0 {
        var current := framesQ[0];
        SortedHeadIsFirst(framesQ, frames);
        Drain(current);
        drained := Some(current);
      }
    }
  }

  /** Frames 9 and 10 pending: the first tick drains frame 10, the second frame 9. */
  method StringOrderScenario() returns (first: Option<FrameId>, second: Option<FrameId>)
    ensures first == Some(10) && second == Some(9)
  {
    var w := new Worker();
    w.Img(9, 0, 0);
    w.Img(10, 0, 0);
    TenBeforeNine();
    first := w.Tick();
    assert w.frames == {9};
    second := w.Tick();
  }

  /**
   * An image for frame 5 is sent, and a tick drains frame 5 before its decode
   * resolves: nothing is pending and the decode still is.
   */
  method EarlyTickSetup() returns (w: Worker)
    ensures fresh(w) && w.Valid()
    ensures w.frames == {} && w.drawQ == map[] && w.decoding == [PendingDecode(5, 3, 4)]
  {
    w := new Worker();
    w.Img(5, 3, 4);
    assert IsFirst(5, {5});
    FirstUnique(5, First({5}), {5});
    assert {5} - {5} == {};
    var d := w.Tick();
  }

  /**
   * When that decode resolves its draw operation is left in `drawQ`, frame 5
   * is not pending again, and the next tick finds nothing to drain.
   */
  method LateImageScenario() returns (left: seq<DrawOp>, pending: set<FrameId>, drained: Option<FrameId>)
    ensures left == [DrawOp(7, 3, 4)] && pending == {} && drained == None
  {
    var w := EarlyTickSetup();
    assert Lookup(w.drawQ, 5) == [];
    w.DecodeCompletes(0, 7);
    assert w.drawQ == map[][5 := [] + [DrawOp(7, 3, 4)]];
    drained := w.Tick();
    left := w.drawQ[5];
    pending := w.frames;
  }

  /**
   * Fill(frame 1), img(frame 2), fill(frame 1) on a new worker: frames 1 and 2
   * are pending, and frame 1's fill list holds both fills in arrival order.
   */
  method ArrivalOrderSetup(r1: nat, g1: nat, b1: nat, r2: nat, g2: nat, b2: nat) returns (w: Worker)
    ensures fresh(w) && w.Valid()
    ensures w.frames == {1, 2} && w.canvasLog == [] && w.oldFill == None
    ensures Lookup(w.fillQ, 1) == [FillOp(RgbString(r1, g1, b1), 0, 0, 4, 4), FillOp(RgbString(r2, g2, b2), 1, 1, 2, 2)]
  {
    w := new Worker();
    w.Fill(1, 0, 0, 4, 4, r1, g1, b1);
    w.Img(2, 0, 0);
    w.Fill(1, 1, 1, 2, 2, r2, g2, b2);
  }

  /**
   * After that setup one tick drains frame 1 only, painting its two fills in
   * arrival order, and frame 2 stays pending.
   */
  method ArrivalOrderScenario(r1: nat, g1: nat, b1: nat, r2: nat, g2: nat, b2: nat) returns (drained: Option<FrameId>, pending: set<FrameId>, painted: seq<Paint>)
    ensures drained == Some(1) && pending == {2}
    ensures painted == [Paint(RgbString(r1, g1, b1), 0, 0, 4, 4), Paint(RgbString(r2, g2, b2), 1, 1, 2, 2)]
  {
    var w := ArrivalOrderSetup(r1, g1, b1, r2, g2, b2);
    var ops := [FillOp(RgbString(r1, g1, b1), 0, 0, 4, 4), FillOp(RgbString(r2, g2, b2), 1, 1, 2, 2)];
    ghost var dq, pq, cq, fq := w.drawQ, w.putQ, w.copyQ, w.fillQ;
    DigitsBefore(1, 2);
    assert IsFirst(1, {1, 2});
    FirstUnique(1, First({1, 2}), {1, 2});
    assert {1, 2} - {1} == {2};
    drained := w.Tick();
    pending := w.frames;
    AfterFramePaints([], 1, dq, pq, cq, fq, None);
    painted := PaintedFills(w.canvasLog);
    IntendedPaintsPair(ops[0], ops[1]);
  }

  /** Frames 1 to 4 pending on a new worker, through one img message each. */
  method FourPendingSetup() returns (w: Worker)
    ensures fresh(w) && w.Valid()
    ensures w.frames == {1, 2, 3, 4} && w.fullSignals == [false]
  {
    w := new Worker();
    w.Img(1, 0, 0);
    w.Img(2, 0, 0);
    w.Img(3, 0, 0);
    w.Img(4, 0, 0);
  }

  lemma FourFrames(s: set<FrameId>)
    requires s == {1, 2, 3, 4}
    ensures |s| == 4 && First(s) == 1 && s - {1} == {2, 3, 4}
  {
    var t: set<FrameId> := {1, 2, 3};
    assert s == t + {4} && 4 !in t && |t| == 3;
    DigitsBefore(1, 2);
    DigitsBefore(1, 3);
    DigitsBefore(1, 4);
    assert IsFirst(1, s);
    FirstUnique(1, First(s), s);
  }

  /** Four frames pending: the tick reports 'full' and still drains one of them. */
  method FullStillDrainsScenario() returns (signal: bool, drained: Option<FrameId>, left: set<FrameId>)
    ensures signal && drained == Some(1) && left == {2, 3, 4}
  {
    var w := FourPendingSetup();
    FourFrames(w.frames);
    drained := w.Tick();
    signal := w.fullSignals[1];
    left := w.frames;
  }
}

=== FILE: display.dfy ===
/**
 * The main-thread `Display`: it owns the framebuffer and viewport sizes, keeps
 * the `full` flag the canvas worker reports, and turns drawing calls into
 * messages for the worker. Every `postMessage` appends to `outbox`.
 */
module Display {
  import opened Wrappers
  import opened Bytes

  /** The visible region: `_viewportLoc`. */
  datatype Rect = Rect(x: int, y: int, w: int, h: int)

  /** What the constructor may be handed as its target. */
  datatype Target =
    | Undefined
    | Null
    | Str(text: string)
    | Element(hasGetContext: bool, width: int, height: int)

  /** A message posted to the canvas worker. */
  datatype WorkerMessage =
    | CanvasTransfer
    | ResizeMsg(width: int, height: int)
    | FillMsg(x: int, y: int, width: int, height: int, r: nat, g: nat, b: nat, frame: nat)
    | ImgMsg(x: int, y: int, mime: string, buffer: seq<byte>, frame: nat)
    | VideoFrameMsg(x: int, y: int, width: int, height: int, frame: nat)
    | PutMsg(x: int, y: int, width: int, height: int, buffer: seq<byte>, offset: nat, byteOffset: nat, frame: nat)

  /** JavaScript truthiness of a target: `undefined`, `null` and the empty string are falsy. */
  predicate Truthy(t: Target) {
    match t
    case Undefined => false
    case Null => false
    case Str(s) => s != ""
    case Element(_, _, _) => true
  }

  /** The constructor's guard checks, in order: the error it throws, if any. */
  function TargetError(t: Target): (e: Option<string>)
    ensures e.None? <==> t.Element? && t.hasGetContext
    ensures !Truthy(t) ==> e == Some("Target must be set")
    ensures t.Str? && t.text != "" ==> e == Some("target must be a DOM element")
    ensures t.Element? && !t.hasGetContext ==> e == Some("no getContext method")
  {
    if !Truthy(t) then Some("Target must be set")
    else if t.Str? then Some("target must be a DOM element")
    else if !t.hasGetContext then Some("no getContext method")
    else None
  }

  /**
   * The size `viewportChangeSize(width, height)` settles on: the framebuffer
   * size when clipping is off or an argument is undefined, otherwise the
   * requested size, each side capped by the framebuffer.
   */
  function FitViewport(clip: bool, fbWidth: int, fbHeight: int, width: Option<int>, height: Option<int>): (size: (int, int))
    ensures size.0 <= fbWidth && size.1 <= fbHeight
    ensures !clip || width.None? || height.None? ==> size == (fbWidth, fbHeight)
    ensures clip && width.Some? && height.Some? ==>
      && (width.value <= fbWidth ==> size.0 == width.value)
      && (width.value > fbWidth ==> size.0 == fbWidth)
      && (height.value <= fbHeight ==> size.1 == height.value)
      && (height.value > fbHeight ==> size.1 == fbHeight)
  {
    var (w, h) := if !clip || width.None? || height.None? then (fbWidth, fbHeight) else (width.value, height.value);
    (if w > fbWidth then fbWidth else w, if h > fbHeight then fbHeight else h)
  }

  /** Fitting a size that already fits changes nothing, so a second adjustment posts no second 'resize'. */
  lemma FitViewportIdempotent(clip: bool, fbWidth: int, fbHeight: int, width: Option<int>, height: Option<int>)
    ensures var size := FitViewport(clip, fbWidth, fbHeight, width, height);
      FitViewport(clip, fbWidth, fbHeight, Some(size.0), Some(size.1)) == size
  {
  }

  class Display {
    var full: bool
    var fbWidth: int
    var fbHeight: int
    var viewport: Rect
    var clipViewport: bool
    /** The messages posted to the canvas worker, oldest first. */
    var outbox: seq<WorkerMessage>
    /** One entry per `onflush` call: what `pending()` returned while that call ran. */
    var flushes: seq<bool>

    /** The viewport lies within the framebuffer's size. */
    predicate ViewportFits()
      reads this`viewport, this`fbWidth, this`fbHeight
    {
      viewport.w <= fbWidth && viewport.h <= fbHeight
    }

    /** The part of the constructor that runs once the target has passed its checks. */
    constructor (width: int, height: int)
      ensures !full && fbWidth == 0 && fbHeight == 0 && !clipViewport && flushes == []
      ensures viewport == Rect(0, 0, width, height)
      ensures outbox == [CanvasTransfer]
    {
      full := false;
      fbWidth, fbHeight := 0, 0;
      viewport := Rect(0, 0, width, height);
      outbox := [CanvasTransfer];
      clipViewport := false;
      flushes := [];
    }

    /**
     * `new Display(target)`: a display, or the error the guard checks throw.
     * Creating the worker and `transferControlToOffscreen` are taken to
     * succeed: a target with `getContext` stands for a fresh, transferable canvas.
     */
    static method New(t: Target) returns (r: Result<Display>)
      ensures r.Thrown? <==> TargetError(t).Some?
      ensures r.Thrown? ==> r.error == TargetError(t).value
      ensures r.Ok? ==>
        && fresh(r.value) && !r.value.full && !r.value.clipViewport && r.value.flushes == []
        && r.value.fbWidth == 0 && r.value.fbHeight == 0
        && r.value.viewport == Rect(0, 0, t.width, t.height) && r.value.outbox == [CanvasTransfer]
    {
      var e := TargetError(t);
      if e.Some? {
        return Thrown(e.value);
      }
      var d := new Display(t.width, t.height);
      return Ok(d);
    }

    /** `pending()`: whether the worker last reported itself full. */
    function Pending(): bool
      reads this`full
    {
      full
    }

    /**
     * A 'full' message from the worker: `onflush` runs exactly when the worker
     * is no longer full, and runs before `_full` is updated, so a `pending()`
     * call inside it still sees the previous flag.
     */
    method OnFull(message: bool)
      modifies this`full, this`flushes
      ensures full == message && Pending() == message
      ensures flushes == old(flushes) + (if message then [] else [old(Pending())])
    {
      if !message {
        flushes := flushes + [Pending()];
      }
      full := message;
    }

    /**
     * `viewportChangePos(deltaX, deltaY)`: clamps the requested move so the
     * viewport would stay on the framebuffer, and returns the clamped move. It
     * never writes the viewport.
     */
    method ViewportChangePos(deltaX: int, deltaY: int) returns (dx: int, dy: int)
      ensures viewport.x + viewport.w - 1 + dx <= fbWidth - 1
      ensures viewport.y + viewport.h - 1 + dy <= fbHeight - 1
      ensures 0 <= viewport.x && viewport.x + viewport.w <= fbWidth ==> 0 <= viewport.x + dx
      ensures 0 <= viewport.y && viewport.y + viewport.h <= fbHeight ==> 0 <= viewport.y + dy
      ensures clipViewport && 0 <= viewport.x + deltaX && viewport.x + viewport.w + deltaX <= fbWidth ==> dx == deltaX
      ensures clipViewport && 0 <= viewport.y + deltaY && viewport.y + viewport.h + deltaY <= fbHeight ==> dy == deltaY
      ensures !clipViewport && 0 <= viewport.x <= viewport.w && viewport.x + viewport.w <= fbWidth ==> dx == -viewport.x
      ensures !clipViewport && 0 <= viewport.y <= viewport.h && viewport.y + viewport.h <= fbHeight ==> dy == -viewport.y
    {
      var vp := viewport;
      dx, dy := deltaX, deltaY;
      if !clipViewport {
        dx := -vp.w;
        dy := -vp.h;
      }
      var vx2 := vp.x + vp.w - 1;
      var vy2 := vp.y + vp.h - 1;
      if dx < 0 && vp.x + dx < 0 {
        dx := -vp.x;
      }
      if vx2 + dx >= fbWidth {
        dx := dx - (vx2 + dx - fbWidth + 1);
      }
      if vp.y + dy < 0 {
        dy := -vp.y;
      }
      if vy2 + dy >= fbHeight {
        dy := dy - (vy2 + dy - fbHeight + 1);
      }
    }

    /**
     * `viewportChangeSize(width, height)`: the viewport takes the fitted size,
     * and the worker is told to resize only when that size is new.
     */
    method ViewportChangeSize(width: Option<int>, height: Option<int>)
      modifies this`viewport, this`outbox
      ensures ViewportFits()
      ensures var size := FitViewport(clipViewport, fbWidth, fbHeight, width, height);
        viewport == old(viewport).(w := size.0, h := size.1)
      ensures outbox == old(outbox) +
        if viewport == old(viewport) then [] else [ResizeMsg(viewport.w, viewport.h)]
    {
      var size := FitViewport(clipViewport, fbWidth, fbHeight, width, height);
      var vp := viewport;
      if vp.w != size.0 || vp.h != size.1 {
        viewport := vp.(w := size.0, h := size.1);
        outbox := outbox + [ResizeMsg(size.0, size.1)];
        var dx, dy := ViewportChangePos(0, 0);
      }
    }

    /**
     * `resize(width, height)`: the framebuffer takes the new size, the worker
     * is told, and the viewport is refitted to the new framebuffer.
     */
    method Resize(width: int, height: int)
      modifies this`fbWidth, this`fbHeight, this`viewport, this`outbox
      ensures fbWidth == width && fbHeight == height
      ensures ViewportFits()
      ensures var size := FitViewport(clipViewport, width, height, Some(old(viewport).w), Some(old(viewport).h));
        viewport == old(viewport).(w := size.0, h := size.1)
      ensures outbox == old(outbox) + [ResizeMsg(width, height)] +
        if viewport == old(viewport) then [] else [ResizeMsg(viewport.w, viewport.h)]
    {
      fbWidth := width;
      fbHeight := height;
      outbox := outbox + [ResizeMsg(width, height)];
      ViewportChangeSize(Some(viewport.w), Some(viewport.h));
      var dx, dy := ViewportChangePos(0, 0);
    }

    /** The `clipViewport` setter: the flag changes and the viewport is refitted. */
    method SetClipViewport(clip: bool)
      modifies this`clipViewport, this`viewport, this`outbox
      ensures clipViewport == clip && ViewportFits()
      ensures var size := FitViewport(clip, fbWidth, fbHeight, Some(old(viewport).w), Some(old(viewport).h));
        viewport == old(viewport).(w := size.0, h := size.1)
      ensures outbox == old(outbox) +
        if viewport == old(viewport) then [] else [ResizeMsg(viewport.w, viewport.h)]
    {
      clipViewport := clip;
      ViewportChangeSize(Some(viewport.w), Some(viewport.h));
      var dx, dy := ViewportChangePos(0, 0);
    }

    /** `fillRect`: one 'fill' message, whatever the arguments. */
    method FillRect(x: int, y: int, width: int, height: int, r: nat, g: nat, b: nat, frame: nat)
      modifies this`outbox
      ensures outbox == old(outbox) + [FillMsg(x, y, width, height, r, g, b, frame)]
    {
      outbox := outbox + [FillMsg(x, y, width, height, r, g, b, frame)];
    }

    /**
     * `copyImage`: the message literal names `x` and `y`, which are declared
     * nowhere, so the call throws a `ReferenceError` before anything is posted.
     */
    method CopyImage(oldX: int, oldY: int, newX: int, newY: int, w: int, h: int, frame: nat) returns (r: Result<()>)
      ensures r == Thrown("ReferenceError: x is not defined")
    {
      r := Thrown("ReferenceError: x is not defined");
    }

    /** `imageRect`: nothing is posted for an empty rectangle, otherwise one 'img' message. */
    method ImageRect(x: int, y: int, width: int, height: int, mime: string, buffer: seq<byte>, frame: nat)
      modifies this`outbox
      ensures width == 0 || height == 0 ==> outbox == old(outbox)
      ensures width != 0 && height != 0 ==> outbox == old(outbox) + [ImgMsg(x, y, mime, buffer, frame)]
    {
      if width == 0 || height == 0 {
        return;
      }
      outbox := outbox + [ImgMsg(x, y, mime, buffer, frame)];
    }

    /** `decodedRect`: one 'videoframe' message. */
    method DecodedRect(x: int, y: int, width: int, height: int, frame: nat)
      modifies this`outbox
      ensures outbox == old(outbox) + [VideoFrameMsg(x, y, width, height, frame)]
    {
      outbox := outbox + [VideoFrameMsg(x, y, width, height, frame)];
    }

    /**
     * `transparentRect`: returns early for an empty rectangle; otherwise it
     * reaches `this._asyncRenderQPush`, which this class does not define. It
     * never posts to the worker.
     */
    method TransparentRect(x: int, y: int, width: int, height: int, frame: nat) returns (r: Result<()>)
      ensures r.Ok? <==> width == 0 || height == 0
      ensures r.Thrown? ==> r.error == "TypeError: this._asyncRenderQPush is not a function"
    {
      if width == 0 || height == 0 {
        return Ok(());
      }
      r := Thrown("TypeError: this._asyncRenderQPush is not a function");
    }

    /** `blitImage`: one 'put' message carrying the pixel buffer and both offsets. */
    method BlitImage(x: int, y: int, width: int, height: int, buffer: seq<byte>, byteOffset: nat, offset: nat, frame: nat)
      modifies this`outbox
      ensures outbox == old(outbox) + [PutMsg(x, y, width, height, buffer, offset, byteOffset, frame)]
    {
      outbox := outbox + [PutMsg(x, y, width, height, buffer, offset, byteOffset, frame)];
    }
  }

  /**
   * A display built on a 1024x768 canvas element before the first framebuffer
   * resize: its viewport is larger than the 0x0 framebuffer until `resize`
   * refits it.
   */
  method FirstResizeScenario() returns (before: bool, after: bool, posted: seq<WorkerMessage>)
    ensures !before && after
    ensures posted == [CanvasTransfer, ResizeMsg(800, 600), ResizeMsg(800, 600)]
  {
    var r := Display.New(Element(true, 1024, 768));
    var d := r.value;
    before := d.ViewportFits();
    d.Resize(800, 600);
    after := d.ViewportFits();
    posted := d.outbox;
  }

  /**
   * The worker reports itself full and then not full: the flush handler runs
   * once, and a `pending()` call inside it still answers true.
   */
  method FlushSeesStaleFlagScenario() returns (seen: seq<bool>, pendingAfter: bool)
    ensures seen == [true] && !pendingAfter
  {
    var r := Display.New(Element(true, 640, 480));
    var d := r.value;
    d.OnFull(true);
    d.OnFull(false);
    seen := d.flushes;
    pendingAfter := d.Pending();
  }
}

=== FILE: frame_order.dfy ===
/**
 * The order in which the canvas worker drains frames. `processQ` sorts the
 * pending frame ids with `Array.from(frames).sort()`, and a sort without a
 * comparator compares the ids' decimal strings, not their values: frame 10
 * comes before frame 9.
 */
module FrameOrder {
  import opened Text

  type FrameId = nat

  /**
   * The default sort order of two frame ids: their decimal strings compared as
   * JavaScript strings. An id sorts before every id whose digits extend its
   * own (1 before 10 before 100), and among one-digit ids the order is numeric.
   */
  predicate Before(a: FrameId, b: FrameId)
    ensures Decimal(a) < Decimal(b) ==> Before(a, b)
    ensures a < 10 && b < 10 ==> (Before(a, b) <==> a < b)
  {
    assert a < 10 ==> Decimal(a) == [Digit(a)];
    assert b < 10 ==> Decimal(b) == [Digit(b)];
    assert a < 10 && b < 10 && a == b ==> !StrLess(Decimal(a), Decimal(b));
    StrLess(Decimal(a), Decimal(b))
  }

  /** `Before` is a strict total order on frame ids. */
  lemma BeforeIsStrictTotal(a: FrameId, b: FrameId, c: FrameId)
    ensures !Before(a, a)
    ensures Before(a, b) ==> !Before(b, a)
    ensures Before(a, b) && Before(b, c) ==> Before(a, c)
    ensures a != b ==> Before(a, b) || Before(b, a)
  {
    StrLessIrreflexive(Decimal(a));
    if Before(a, b) {
      StrLessAsymmetric(Decimal(a), Decimal(b));
      if Before(b, c) {
        StrLessTransitive(Decimal(a), Decimal(b), Decimal(c));
      }
    }
    if a != b {
      if Decimal(a) == Decimal(b) {
        DecimalInjective(a, b);
      }
      StrLessTotal(Decimal(a), Decimal(b));
    }
  }

  /** A sequence sorted by `Before`; such a sequence holds no id twice. */
  predicate SortedByString(q: seq<FrameId>) {
    forall i, j :: 0 <= i < j < |q| ==> Before(q[i], q[j])
  }

  /** `m` is the element of `s` that a sort without comparator puts first. */
  predicate IsFirst(m: FrameId, s: set<FrameId>) {
    m in s && forall x :: x in s && x != m ==> Before(m, x)
  }

  /** Every non-empty set of ids has a first element. */
  lemma {:induction false} FirstExists(s: set<FrameId>)
    requires s != {}
    ensures exists m :: IsFirst(m, s)
    decreases |s|
  {
    var x :| x in s;
    var rest := s - {x};
    if rest == {} {
      assert s == {x};
      assert IsFirst(x, s);
    } else {
      FirstExists(rest);
      var m :| IsFirst(m, rest);
      BeforeIsStrictTotal(m, x, m);
      if Before(m, x) {
        assert IsFirst(m, s);
      } else {
        forall y | y in s && y != x
          ensures Before(x, y)
        {
          BeforeIsStrictTotal(x, m, y);
        }
        assert IsFirst(x, s);
      }
    }
  }

  /** And only one. */
  lemma FirstUnique(m: FrameId, n: FrameId, s: set<FrameId>)
    requires IsFirst(m, s) && IsFirst(n, s)
    ensures m == n
  {
    if m != n {
      BeforeIsStrictTotal(m, n, m);
    }
  }

  /** The id `processQ` drains from the pending set `s`. */
  ghost function First(s: set<FrameId>): (m: FrameId)
    requires s != {}
    ensures IsFirst(m, s)
  {
    FirstExists(s);
    var m :| IsFirst(m, s);
    m
  }

  /** The head of a sorted sequence is the first of its elements. */
  lemma SortedHeadIsFirst(q: seq<FrameId>, s: set<FrameId>)
    requires SortedByString(q) && q != []
    requires forall x :: x in s <==> x in q
    ensures q[0] in s && q[0] == First(s)
  {
    assert q[0] in q;
    forall x | x in s && x != q[0]
      ensures Before(q[0], x)
    {
      var j :| 0 <= j < |q| && q[j] == x;
    }
    FirstUnique(q[0], First(s), s);
  }

  /** Inserts `x` into the sorted sequence `q` at its place. */
  function Insert(q: seq<FrameId>, x: FrameId): (r: seq<FrameId>)
    requires SortedByString(q) && x !in q
    ensures SortedByString(r)
    ensures |r| == |q| + 1
    ensures forall y :: y in r <==> y in q || y == x
  {
    if q == [] then [x]
    else if Before(x, q[0]) then
      assert forall j :: 0 <= j < |q| ==> Before(x, q[j]) by {
        forall j | 0 <= j < |q| ensures Before(x, q[j]) {
          if j > 0 {
            BeforeIsStrictTotal(x, q[0], q[j]);
          }
        }
      }
      [x] + q
    else
      var tail := Insert(q[1..], x);
      assert Before(q[0], x) by {
        BeforeIsStrictTotal(x, q[0], x);
      }
      assert forall j :: 0 <= j < |tail| ==> Before(q[0], tail[j]) by {
        forall j | 0 <= j < |tail| ensures Before(q[0], tail[j]) {
          assert tail[j] in tail;
        }
      }
      [q[0]] + tail
  }

  /** `Array.from(frames).sort()`: the pending ids, each once, in string order. */
  method SortIds(frames: set<FrameId>) returns (q: seq<FrameId>)
    ensures SortedByString(q)
    ensures |q| == |frames|
    ensures forall x :: x in q <==> x in frames
  {
    q := [];
    var rest := frames;
    while rest != {}
      invariant SortedByString(q)
      invariant forall x :: x in frames <==> x in q || x in rest
      invariant forall x :: x in q ==> x !in rest
      invariant |q| + |rest| == |frames|
      decreases |rest|
    {
      var x :| x in rest;
      q := Insert(q, x);
      rest := rest - {x};
    }
  }

  /** Among one-digit ids, the string order is the numeric order. */
  lemma DigitsBefore(a: FrameId, b: FrameId)
    requires a < b < 10
    ensures Before(a, b)
  {
    assert Decimal(a) == [Digit(a)] && Decimal(b) == [Digit(b)];
  }

  /** With ids 9 and 10 pending, 10 is drained first: "10" < "9" as strings. */
  lemma TenBeforeNine()
    ensures First({9, 10}) == 10
    ensures Before(10, 9) && !Before(9, 10)
  {
    assert Decimal(9) == "9";
    assert Decimal(10) == "10";
    assert StrLess("10", "9");
    assert IsFirst(10, {9, 10});
    FirstUnique(First({9, 10}), 10, {9, 10});
  }
}

=== FILE: kasm_video.dfy ===
/**
 * The KasmVideo rectangle decoder: a control byte whose high nibble picks the
 * sub-decoder, then, for a VP8 rectangle, a 1 to 3 byte little-endian length
 * (two 7-bit groups, then a final 8-bit byte) and that many payload bytes. The decoder keeps `_ctl` and
 * `_len` between calls, so a rectangle whose bytes have not all arrived is
 * resumed on the next call.
 */
module KasmVideo {
  import opened Wrappers
  import opened Bytes
  import opened Text

  /** The largest length three header bytes can carry: 7 + 7 + 8 bits. */
  const MAX_LENGTH: nat := 0x3F_FFFF

  /** The socket's receive queue: the bytes received so far and the read cursor. */
  class ReceiveQueue {
    var buffer: seq<byte>
    var pos: nat

    ghost predicate Valid()
      reads this
    {
      pos <= |buffer|
    }

    /** The bytes not yet read. */
    function Remaining(): (r: seq<byte>)
      reads this
      requires Valid()
      ensures |r| == |buffer| - pos
    {
      buffer[pos..]
    }

    constructor (received: seq<byte>)
      ensures Valid() && buffer == received && pos == 0
    {
      buffer := received;
      pos := 0;
    }

    /** `rQwait(msg, n)`: true when fewer than `n` bytes remain. */
    function Wait(n: int): (waiting: bool)
      reads this
      requires Valid()
      ensures waiting <==> |Remaining()| < n
    {
      |buffer| - pos < n
    }

    /** `rQshift8()`: takes the next byte. */
    method Shift8() returns (b: byte)
      requires Valid() && pos < |buffer|
      modifies this`pos
      ensures Valid() && pos == old(pos) + 1
      ensures b == buffer[old(pos)] && [b] + Remaining() == old(Remaining())
    {
      b := buffer[pos];
      pos := pos + 1;
    }

    /** `rQshiftBytes(n)`: takes the next `n` bytes. */
    method ShiftBytes(n: nat) returns (s: seq<byte>)
      requires Valid() && pos + n <= |buffer|
      modifies this`pos
      ensures Valid() && pos == old(pos) + n
      ensures s + Remaining() == old(Remaining()) && |s| == n
    {
      s := buffer[pos..pos + n];
      pos := pos + n;
      assert buffer[old(pos)..] == s + buffer[pos..];
    }
  }

  /**
   * The length carried by header bytes `b0`, `b1`, `b2`: the low 7 bits of
   * each byte, least significant group first; `b1` counts only when `b0` has
   * its top bit set, and `b2` (all 8 bits) only when `b1` does too.
   */
  function HeaderLength(b0: byte, b1: byte, b2: byte): (n: nat)
    ensures n <= MAX_LENGTH
    ensures b0 < 128 ==> n == b0 as nat
  {
    (b0 % 128) as nat
    + if b0 < 128 then 0
      else 128 * (b1 % 128) as nat + if b1 < 128 then 0 else 16384 * b2 as nat
  }

  /** How many header bytes `HeaderLength` reads. */
  function HeaderSize(b0: byte, b1: byte): (k: nat)
    ensures 1 <= k <= 3
  {
    if b0 < 128 then 1 else if b1 < 128 then 2 else 3
  }

  /** A minimal header for `n`: as few 7-bit groups as `n` needs. */
  function EncodeLength(n: nat): (h: seq<byte>)
    requires n <= MAX_LENGTH
    ensures 1 <= |h| <= 3
  {
    if n < 128 then [n as byte]
    else if n < 16384 then [(128 + n % 128) as byte, (n / 128) as byte]
    else [(128 + n % 128) as byte, (128 + n / 128 % 128) as byte, (n / 16384) as byte]
  }

  /** Reading an encoded header gives back its length and uses exactly its bytes, whatever follows. */
  lemma LengthRoundTrip(n: nat, rest: seq<byte>)
    requires n <= MAX_LENGTH
    requires 3 <= |EncodeLength(n) + rest|
    ensures var s := EncodeLength(n) + rest;
      HeaderLength(s[0], s[1], s[2]) == n && HeaderSize(s[0], s[1]) == |EncodeLength(n)|
  {
    var s := EncodeLength(n) + rest;
    var q := n / 128;
    assert n == 128 * q + n % 128;
    if n >= 16384 {
      assert q / 128 == n / 16384 && q == 128 * (n / 16384) + q % 128;
      assert s[0] as int == 128 + n % 128 && s[1] as int == 128 + q % 128 && s[2] as int == n / 16384;
      assert s[0] % 128 == (n % 128) as byte && s[1] % 128 == (q % 128) as byte;
    } else if n >= 128 {
      assert s[0] as int == 128 + n % 128 && s[1] as int == q;
      assert s[0] % 128 == (n % 128) as byte;
    }
  }

  /** What one `_readData` call does to the pending length, and what it returns and consumes. */
  datatype ReadOutcome = ReadOutcome(data: Option<seq<byte>>, len: nat, consumed: nat)

  /**
   * `_readData` against the unread bytes `avail`, with `len` the length
   * remembered from an earlier call (0: no header read yet).
   */
  function ReadStep(len: nat, avail: seq<byte>): (o: ReadOutcome)
    ensures o.consumed <= |avail|
    ensures o.data.Some? ==> o.len == 0 && |o.data.value| <= o.consumed && o.data.value == avail[o.consumed - |o.data.value|..o.consumed]
    ensures o.data.None? ==> o.consumed <= 3
  {
    if len == 0 && |avail| < 3 then ReadOutcome(None, 0, 0)
    else
      var n := if len == 0 then HeaderLength(avail[0], avail[1], avail[2]) else len;
      var used := if len == 0 then HeaderSize(avail[0], avail[1]) else 0;
      if |avail| - used < n then ReadOutcome(None, n, used)
      else ReadOutcome(Some(avail[used..used + n]), 0, used + n)
  }

  /** Fewer than three bytes: nothing is parsed, even when one header byte would do. */
  lemma ReadWaitsForThreeBytes(avail: seq<byte>)
    requires |avail| < 3
    ensures ReadStep(0, avail) == ReadOutcome(None, 0, 0)
  {
  }

  /** A remembered length skips the header: exactly `len` bytes are returned once they are there. */
  lemma ReadWithPendingLength(len: nat, avail: seq<byte>)
    requires len > 0
    ensures |avail| < len ==> ReadStep(len, avail) == ReadOutcome(None, len, 0)
    ensures |avail| >= len ==> ReadStep(len, avail) == ReadOutcome(Some(avail[..len]), 0, len)
  {
  }

  /** A header followed by its whole payload is read back as that payload, and nothing more is taken. */
  lemma {:induction false} ReadRoundTrip(payload: seq<byte>, rest: seq<byte>)
    requires |payload| <= MAX_LENGTH
    requires 3 <= |EncodeLength(|payload|) + payload + rest|
    ensures var h := EncodeLength(|payload|);
      ReadStep(0, h + payload + rest) == ReadOutcome(Some(payload), 0, |h| + |payload|)
  {
    var h := EncodeLength(|payload|);
    var s := h + payload + rest;
    LengthRoundTrip(|payload|, payload + rest);
    assert h + payload + rest == h + (payload + rest);
    assert s[|h|..|h| + |payload|] == payload;
  }

  /**
   * Reading stops and resumes without loss: a call that sees only the first
   * `k` bytes and returns `null`, followed by a call on the bytes it left,
   * ends where one call on all the bytes would.
   */
  lemma {:induction false} ReadResumes(s: seq<byte>, k: nat)
    requires k <= |s|
    ensures var first := ReadStep(0, s[..k]);
      var whole := ReadStep(0, s);
      first.data.None? ==>
        var second := ReadStep(first.len, s[first.consumed..]);
        && (first.len == 0 ==> first.consumed == 0)
        && second.data == whole.data && second.len == whole.len
        && first.consumed + second.consumed == whole.consumed
  {
    var first := ReadStep(0, s[..k]);
    if first.data.None? && first.len != 0 {
      assert s[..k][0] == s[0] && s[..k][1] == s[1] && s[..k][2] == s[2];
      var used := first.consumed;
      var t := s[used..];
      if first.len <= |t| {
        assert t[0..first.len] == s[used..used + first.len];
      }
    }
  }

  /** Whether `decodeRect` finished the rectangle, and what it leaves in `_ctl` and `_len`. */
  datatype DecodeOutcome = DecodeOutcome(result: Result<bool>, payload: Option<seq<byte>>, ctl: Option<nat>, len: nat, consumed: nat)

  const ILLEGAL_CTL_PREFIX: string := "Illegal KasmVideo compression received (ctl: "

  /**
   * The message thrown for a control value other than 0 and 1: the fixed
   * text, the control value in decimal, and a closing parenthesis, so the
   * value can be read back from the message.
   */
  function IllegalCtl(ctl: nat): (msg: string)
    ensures |ILLEGAL_CTL_PREFIX| + 2 <= |msg| && msg[..|ILLEGAL_CTL_PREFIX|] == ILLEGAL_CTL_PREFIX && msg[|msg| - 1] == ')'
    ensures forall i :: |ILLEGAL_CTL_PREFIX| <= i < |msg| - 1 ==> IsDigit(msg[i])
    ensures DigitsValue(msg[|ILLEGAL_CTL_PREFIX|..|msg| - 1]) == ctl
  {
    DecimalRoundTrip(ctl);
    var msg := ILLEGAL_CTL_PREFIX + Decimal(ctl) + ")";
    assert msg[|ILLEGAL_CTL_PREFIX|..|msg| - 1] == Decimal(ctl);
    msg
  }

  /** A pending length only ever belongs to a VP8 rectangle in progress. */
  predicate Coherent(ctl: Option<nat>, len: nat) {
    len > 0 ==> ctl == Some(1)
  }

  /**
   * `decodeRect` against the unread bytes `avail`, with `ctl` and `len` the
   * decoder's remembered control value and pending length.
   */
  function DecodeStep(ctl: Option<nat>, len: nat, avail: seq<byte>): (o: DecodeOutcome)
    ensures o.consumed <= |avail|
    ensures o.result == Ok(true) ==> o.ctl.None? && (Coherent(ctl, len) ==> o.len == 0)
    ensures o.result == Ok(false) ==> o.ctl.None? || o.ctl == Some(1)
    ensures o.result.Thrown? ==> o.ctl.Some? && o.ctl.value != 0 && o.ctl.value != 1 && o.len == len
    ensures Coherent(ctl, len) ==> Coherent(o.ctl, o.len)
  {
    if ctl.None? && |avail| < 1 then DecodeOutcome(Ok(false), None, None, len, 0)
    else
      var c := if ctl.None? then avail[0] as nat / 16 else ctl.value;
      var used := if ctl.None? then 1 else 0;
      if c == 0 then DecodeOutcome(Ok(true), None, None, len, used)
      else if c == 1 then
        var r := ReadStep(len, avail[used..]);
        if r.data.None? then DecodeOutcome(Ok(false), None, Some(1), r.len, used + r.consumed)
        else DecodeOutcome(Ok(true), r.data, None, r.len, used + r.consumed)
      else DecodeOutcome(Thrown(IllegalCtl(c)), None, Some(c), len, used)
  }

  /** The decoder starts with `_ctl = 0`: its first rectangle is a skip that reads no control byte. */
  lemma FirstRectIsSkip(avail: seq<byte>)
    ensures DecodeStep(Some(0), 0, avail) == DecodeOutcome(Ok(true), None, None, 0, 0)
  {
  }

  /** A control byte is read only when `_ctl` is null, and only its high nibble picks the sub-decoder. */
  lemma ControlByteHighNibble(b: byte, rest: seq<byte>)
    ensures var o := DecodeStep(None, 0, [b] + rest);
      && (b < 16 ==> o == DecodeOutcome(Ok(true), None, None, 0, 1))
      && (16 <= b < 32 ==> o.result.Ok? && o.consumed >= 1)
      && (32 <= b ==> o == DecodeOutcome(Thrown(IllegalCtl(b as nat / 16)), None, Some(b as nat / 16), 0, 1))
  {
  }

  /** An illegal control value stays in `_ctl`: every later call throws again and reads nothing. */
  lemma IllegalCtlSticks(c: nat, len: nat, avail: seq<byte>)
    requires c != 0 && c != 1
    ensures DecodeStep(Some(c), len, avail) == DecodeOutcome(Thrown(IllegalCtl(c)), None, Some(c), len, 0)
  {
  }

  /** A whole VP8 rectangle on the wire: control byte, minimal header, payload. */
  lemma {:induction false} Vp8RectRoundTrip(b: byte, payload: seq<byte>, rest: seq<byte>)
    requires 16 <= b < 32
    requires |payload| <= MAX_LENGTH
    requires 3 <= |EncodeLength(|payload|) + payload + rest|
    ensures var h := EncodeLength(|payload|);
      DecodeStep(None, 0, [b] + h + payload + rest)
        == DecodeOutcome(Ok(true), Some(payload), None, 0, 1 + |h| + |payload|)
  {
    var h := EncodeLength(|payload|);
    var s := [b] + h + payload + rest;
    assert s[1..] == h + payload + rest;
    ReadRoundTrip(payload, rest);
  }

  /**
   * A VP8 rectangle whose bytes arrive in two parts is decoded as if they had
   * arrived together: the first call keeps `_ctl = 1` and the pending length,
   * and the second call finishes the rectangle.
   */
  lemma {:induction false} Vp8RectResumes(s: seq<byte>, k: nat)
    requires k <= |s|
    requires 1 <= k && 16 <= s[0] < 32
    ensures var first := DecodeStep(None, 0, s[..k]);
      var whole := DecodeStep(None, 0, s);
      first.result == Ok(false) ==>
        var second := DecodeStep(first.ctl, first.len, s[first.consumed..]);
        && first.ctl == Some(1)
        && second.result == whole.result && second.payload == whole.payload
        && second.ctl == whole.ctl && second.len == whole.len
        && first.consumed + second.consumed == whole.consumed
  {
    var t := s[1..];
    assert s[..k][1..] == t[..k - 1];
    ReadResumes(t, k - 1);
    var r1 := ReadStep(0, t[..k - 1]);
    assert s[1 + r1.consumed..] == t[r1.consumed..];
  }

  class Decoder {
    /** `_len`: the payload length already read from a header, 0 when none is pending. */
    var len: nat
    /** `_ctl`: the current rectangle's sub-decoder, or none when the next byte is a control byte. */
    var ctl: Option<nat>

    constructor ()
      ensures len == 0 && ctl == Some(0) && Coherent(ctl, len)
    {
      len := 0;
      ctl := Some(0);
    }

    /** The header part of `_readData`: one to three bytes, seven bits at a time, into a length. */
    static method ReadHeader(sock: ReceiveQueue) returns (n: nat)
      requires sock.Valid() && 3 <= |sock.Remaining()|
      modifies sock`pos
      ensures sock.Valid() && sock.buffer == old(sock.buffer)
      ensures var avail := old(sock.Remaining());
        && n == HeaderLength(avail[0], avail[1], avail[2])
        && sock.pos == old(sock.pos) + HeaderSize(avail[0], avail[1])
    {
      ghost var avail := sock.Remaining();
      var b := sock.Shift8();
      n := (b % 128) as nat;
      if b >= 128 {
        b := sock.Shift8();
        n := n + 128 * (b % 128) as nat;
        if b >= 128 {
          b := sock.Shift8();
          n := n + 16384 * b as nat;
        }
      }
    }

    /** `_readData(sock)`, as `ReadStep` describes it. */
    method ReadData(sock: ReceiveQueue) returns (data: Option<seq<byte>>)
      requires sock.Valid()
      modifies this`len, sock`pos
      ensures sock.Valid() && sock.buffer == old(sock.buffer)
      ensures var o := ReadStep(old(len), old(sock.Remaining()));
        data == o.data && len == o.len && sock.pos == old(sock.pos) + o.consumed
    {
      ghost var avail := sock.Remaining();
      if len == 0 {
        if sock.Wait(3) {
          return None;
        }
        len := ReadHeader(sock);
      }
      ghost var used := sock.pos - old(sock.pos);
      assert sock.Remaining() == avail[used..];
      if sock.Wait(len) {
        return None;
      }
      var bytes := sock.ShiftBytes(len);
      assert bytes == avail[used..used + |bytes|];
      len := 0;
      data := Some(bytes);
    }

    /** `_vp8Rect`: reads one length-prefixed payload; false while it has not all arrived. */
    method Vp8Rect(sock: ReceiveQueue) returns (done: bool, payload: Option<seq<byte>>)
      requires sock.Valid()
      modifies this`len, sock`pos
      ensures sock.Valid() && sock.buffer == old(sock.buffer)
      ensures var o := ReadStep(old(len), old(sock.Remaining()));
        done == o.data.Some? && payload == o.data && len == o.len && sock.pos == old(sock.pos) + o.consumed
    {
      payload := ReadData(sock);
      done := payload.Some?;
    }

    /** `decodeRect(…, sock, …)`, as `DecodeStep` describes it. */
    method DecodeRect(sock: ReceiveQueue) returns (r: Result<bool>, payload: Option<seq<byte>>)
      requires sock.Valid()
      modifies this, sock`pos
      ensures sock.Valid() && sock.buffer == old(sock.buffer)
      ensures var o := DecodeStep(old(ctl), old(len), old(sock.Remaining()));
        r == o.result && payload == o.payload && ctl == o.ctl && len == o.len
        && sock.pos == old(sock.pos) + o.consumed
    {
      ghost var avail := sock.Remaining();
      payload := None;
      if ctl.None? {
        if sock.Wait(1) {
          return Ok(false), None;
        }
        var b := sock.Shift8();
        ctl := Some(b as nat / 16);
      }
      ghost var used := sock.pos - old(sock.pos);
      assert sock.Remaining() == avail[used..];
      var ret: bool;
      if ctl.value == 0 {
        ret := true;
      } else if ctl.value == 1 {
        ret, payload := Vp8Rect(sock);
      } else {
        return Thrown(IllegalCtl(ctl.value)), None;
      }
      if ret {
        ctl := None;
      }
      r := Ok(ret);
    }
  }
}

=== FILE: printer.dfy ===
/**
 * The print relay: the server sends a document as a START packet carrying its
 * size, CHUNK packets carrying its bytes and an END packet, each starting with
 * a big-endian 32-bit packet id. On END the bytes gathered so far are printed.
 */
module Printer {
  import opened Wrappers
  import opened Bytes

  const PACKET_START: nat := 0
  const PACKET_CHUNK: nat := 1
  const PACKET_END: nat := 2

  /** The handler's three closure variables. */
  datatype RelayState = RelayState(documentSize: nat, downloadedSize: nat, documentData: seq<byte>)

  /** `documentSize = 0`, `downloadedSize = 0`, `documentData = []`. */
  const INITIAL: RelayState := RelayState(0, 0, [])

  /** What one packet does: the new state, the document handed to `printDocument` if any, and whether the handler threw. */
  datatype StepOutcome = StepOutcome(state: RelayState, printed: Option<seq<byte>>, result: Result<()>)

  const RANGE_ERROR: string := "RangeError: Offset is outside the bounds of the DataView"

  /** The handler for one relay payload. */
  function Step(s: RelayState, payload: seq<byte>): (o: StepOutcome)
    ensures o.result.Thrown? ==> o.state == s && o.printed.None?
    ensures o.printed.Some? ==> o.printed.value == s.documentData
  {
    match GetUint32(payload, 0)
    case Thrown(e) => StepOutcome(s, None, Thrown(e))
    case Ok(id) =>
      if id == PACKET_START then
        match GetUint32(payload, 4)
        case Thrown(e) => StepOutcome(s, None, Thrown(e))
        case Ok(size) => StepOutcome(s.(documentSize := size, downloadedSize := 0), None, Ok(()))
      else if id == PACKET_CHUNK then
        match GetUint32(payload, 4)
        case Thrown(e) => StepOutcome(s, None, Thrown(e))
        case Ok(size) =>
          StepOutcome(s.(downloadedSize := s.downloadedSize + size, documentData := s.documentData + payload[8..]), None, Ok(()))
      else if id == PACKET_END then
        StepOutcome(s.(documentSize := 0, downloadedSize := 0), Some(s.documentData), Ok(()))
      else
        StepOutcome(s, None, Ok(()))
  }

  /** A START packet announcing a document of `size` bytes. */
  function StartPacket(size: nat): (p: seq<byte>)
    requires size < TWO_32
    ensures |p| == 8
  {
    EncodeU32BE(PACKET_START) + EncodeU32BE(size)
  }

  /** A CHUNK packet declaring `declared` bytes and carrying `data`. */
  function ChunkPacket(declared: nat, data: seq<byte>): (p: seq<byte>)
    requires declared < TWO_32
    ensures |p| == 8 + |data| && p[8..] == data
  {
    EncodeU32BE(PACKET_CHUNK) + EncodeU32BE(declared) + data
  }

  /** An END packet. */
  function EndPacket(): (p: seq<byte>)
    ensures |p| == 4
  {
    EncodeU32BE(PACKET_END)
  }

  /** Payloads shorter than four bytes have no packet id: `getUint32` throws and nothing changes. */
  lemma ShortPayloadThrows(s: RelayState, payload: seq<byte>)
    requires |payload| < 4
    ensures Step(s, payload) == StepOutcome(s, None, Thrown(RANGE_ERROR))
  {
  }

  /** START and CHUNK need their size field: with four to seven bytes the handler throws before changing anything. */
  lemma MissingSizeThrows(s: RelayState, payload: seq<byte>)
    requires 4 <= |payload| < 8
    requires U32BE(payload, 0) == PACKET_START || U32BE(payload, 0) == PACKET_CHUNK
    ensures Step(s, payload) == StepOutcome(s, None, Thrown(RANGE_ERROR))
  {
  }

  /** A packet id other than START, CHUNK and END changes nothing and prints nothing. */
  lemma UnknownPacketIgnored(s: RelayState, payload: seq<byte>)
    requires 4 <= |payload|
    requires U32BE(payload, 0) !in {PACKET_START, PACKET_CHUNK, PACKET_END}
    ensures Step(s, payload) == StepOutcome(s, None, Ok(()))
  {
  }

  /** START records the announced size and restarts the count, leaving the gathered bytes alone. */
  lemma StartRecordsSize(s: RelayState, size: nat)
    requires size < TWO_32
    ensures Step(s, StartPacket(size)) == StepOutcome(RelayState(size, 0, s.documentData), None, Ok(()))
  {
    U32BERoundTrip(PACKET_START, EncodeU32BE(size));
    assert StartPacket(size)[4..] == EncodeU32BE(size) + [];
    U32BERoundTrip(size, []);
  }

  /**
   * CHUNK adds the declared size to the count and appends every byte after
   * offset 8, whether or not the declared size matches.
   */
  lemma ChunkAppends(s: RelayState, declared: nat, data: seq<byte>)
    requires declared < TWO_32
    ensures Step(s, ChunkPacket(declared, data))
      == StepOutcome(s.(downloadedSize := s.downloadedSize + declared, documentData := s.documentData + data), None, Ok(()))
  {
    var p := ChunkPacket(declared, data);
    assert p == EncodeU32BE(PACKET_CHUNK) + (EncodeU32BE(declared) + data);
    U32BERoundTrip(PACKET_CHUNK, EncodeU32BE(declared) + data);
    assert p[4..] == EncodeU32BE(declared) + data;
    U32BERoundTrip(declared, data);
  }

  /** END prints what has been gathered and zeroes both sizes, but keeps the gathered bytes. */
  lemma EndPrints(s: RelayState)
    ensures Step(s, EndPacket()) == StepOutcome(RelayState(0, 0, s.documentData), Some(s.documentData), Ok(()))
  {
    U32BERoundTrip(PACKET_END, []);
    assert EndPacket() + [] == EndPacket();
  }

  /** The document one step hands to `printDocument`, as a list of zero or one documents. */
  function Printed(o: StepOutcome): (docs: seq<seq<byte>>)
    ensures |docs| <= 1 && (docs == [] <==> o.printed.None?)
  {
    if o.printed.Some? then [o.printed.value] else []
  }

  /**
   * The state and the printed documents after a sequence of payloads, each
   * handled in turn: at most one document per payload, and every document
   * printed starts with the bytes gathered before the run began.
   */
  function Run(s: RelayState, payloads: seq<seq<byte>>): (r: (RelayState, seq<seq<byte>>))
    ensures |r.1| <= |payloads|
    ensures forall i :: 0 <= i < |r.1| ==> s.documentData <= r.1[i]
    decreases |payloads|
  {
    if payloads == [] then (s, [])
    else
      var o := Step(s, payloads[0]);
      var rest := Run(o.state, payloads[1..]);
      StepKeepsData(s, payloads[0]);
      (rest.0, Printed(o) + rest.1)
  }

  /** No packet removes gathered bytes: the old `documentData` is a prefix of the new one. */
  lemma StepKeepsData(s: RelayState, payload: seq<byte>)
    ensures s.documentData <= Step(s, payload).state.documentData
  {
  }

  /** Nor does any sequence of packets: `documentData` is never cleared, not even by END. */
  lemma {:induction false} RunKeepsData(s: RelayState, payloads: seq<seq<byte>>)
    ensures s.documentData <= Run(s, payloads).0.documentData
    decreases |payloads|
  {
    if payloads != [] {
      var o := Step(s, payloads[0]);
      StepKeepsData(s, payloads[0]);
      RunKeepsData(o.state, payloads[1..]);
    }
  }

  /** Handling `a` and then `b` is handling `a + b`; the printed documents add up. */
  lemma {:induction false} RunAppend(s: RelayState, a: seq<seq<byte>>, b: seq<seq<byte>>)
    ensures var ra := Run(s, a);
      var rb := Run(ra.0, b);
      Run(s, a + b) == (rb.0, ra.1 + rb.1)
    decreases |a|
  {
    if a != [] {
      assert (a + b)[0] == a[0] && (a + b)[1..] == a[1..] + b;
      var o := Step(s, a[0]);
      RunAppend(o.state, a[1..], b);
      var ra' := Run(o.state, a[1..]);
      var rb := Run(ra'.0, b);
      ConcatAssoc(Printed(o), ra'.1, rb.1);
    } else {
      assert a + b == b;
      assert [] + Run(s, b).1 == Run(s, b).1;
    }
  }

  /** A first payload `p` followed by `rest`: one step, then the rest from where it left the handler. */
  lemma RunCons(s: RelayState, p: seq<byte>, rest: seq<seq<byte>>, o: StepOutcome)
    requires o == Step(s, p)
    ensures Run(s, [p] + rest) == (Run(o.state, rest).0, Printed(o) + Run(o.state, rest).1)
  {
    assert ([p] + rest)[0] == p && ([p] + rest)[1..] == rest;
  }

  /** One more payload after `a`: one more step from where `a` left the handler. */
  lemma RunSnoc(s: RelayState, a: seq<seq<byte>>, p: seq<byte>, o: StepOutcome)
    requires o == Step(Run(s, a).0, p)
    ensures Run(s, a + [p]) == (o.state, Run(s, a).1 + Printed(o))
  {
    RunAppend(s, a, [p]);
    var ra := Run(s, a);
    assert [p][1..] == [];
    assert Run(ra.0, [p]) == (o.state, Printed(o) + []);
    assert Printed(o) + [] == Printed(o);
  }

  /** One more CHUNK packet after `a` appends its bytes and its declared size, and prints nothing. */
  lemma RunChunk(s: RelayState, a: seq<seq<byte>>, declared: nat, data: seq<byte>)
    requires declared < TWO_32
    ensures Run(s, a + [ChunkPacket(declared, data)]).0.documentData == Run(s, a).0.documentData + data
    ensures Run(s, a + [ChunkPacket(declared, data)]).0.downloadedSize == Run(s, a).0.downloadedSize + declared
    ensures Run(s, a + [ChunkPacket(declared, data)]).0.documentSize == Run(s, a).0.documentSize
    ensures Run(s, a + [ChunkPacket(declared, data)]).1 == Run(s, a).1
  {
    var ra := Run(s, a);
    var after := ra.0.(downloadedSize := ra.0.downloadedSize + declared, documentData := ra.0.documentData + data);
    var o := StepOutcome(after, None, Ok(()));
    ChunkAppends(ra.0, declared, data);
    RunSnoc(s, a, ChunkPacket(declared, data), o);
    assert Printed(o) == [] && ra.1 + [] == ra.1;
    assert Run(s, a + [ChunkPacket(declared, data)]) == (after, ra.1);
  }

  /** All chunks, concatenated. */
  function Concat(chunks: seq<seq<byte>>): (d: seq<byte>) {
    if chunks == [] then [] else Concat(chunks[..|chunks| - 1]) + chunks[|chunks| - 1]
  }

  /** One CHUNK packet per chunk, each declaring its true size. */
  function ChunkPackets(chunks: seq<seq<byte>>): (ps: seq<seq<byte>>)
    requires forall i :: 0 <= i < |chunks| ==> |chunks[i]| < TWO_32
    ensures |ps| == |chunks|
  {
    if chunks == [] then []
    else ChunkPackets(chunks[..|chunks| - 1]) + [ChunkPacket(|chunks[|chunks| - 1]|, chunks[|chunks| - 1])]
  }

  /** Chunk packets append their bytes in order, print nothing, and count their sizes. */
  lemma {:induction false} ChunksAccumulate(s: RelayState, chunks: seq<seq<byte>>)
    requires forall i :: 0 <= i < |chunks| ==> |chunks[i]| < TWO_32
    ensures var r := Run(s, ChunkPackets(chunks));
      && r.0.documentData == s.documentData + Concat(chunks)
      && r.0.downloadedSize == s.downloadedSize + |Concat(chunks)|
      && r.0.documentSize == s.documentSize
      && r.1 == []
    decreases |chunks|
  {
    if chunks == [] {
      assert s.documentData + [] == s.documentData;
    } else {
      var init := chunks[..|chunks| - 1];
      var last := chunks[|chunks| - 1];
      assert ChunkPackets(chunks) == ChunkPackets(init) + [ChunkPacket(|last|, last)];
      ChunksAccumulate(s, init);
      RunChunk(s, ChunkPackets(init), |last|, last);
      assert Concat(chunks) == Concat(init) + last;
      ConcatAssoc(s.documentData, Concat(init), last);
    }
  }

  /** A whole transfer: START, its chunks, END. */
  function Transfer(chunks: seq<seq<byte>>): (ps: seq<seq<byte>>)
    requires forall i :: 0 <= i < |chunks| ==> |chunks[i]| < TWO_32
    requires |Concat(chunks)| < TWO_32
  {
    [StartPacket(|Concat(chunks)|)] + ChunkPackets(chunks) + [EndPacket()]
  }

  /**
   * A transfer prints the bytes gathered before it followed by its own
   * chunks in order, and leaves both sizes at 0.
   */
  lemma {:induction false} TransferPrints(s: RelayState, chunks: seq<seq<byte>>)
    requires forall i :: 0 <= i < |chunks| ==> |chunks[i]| < TWO_32
    requires |Concat(chunks)| < TWO_32
    ensures Run(s, Transfer(chunks))
      == (RelayState(0, 0, s.documentData + Concat(chunks)), [s.documentData + Concat(chunks)])
  {
    var d := Concat(chunks);
    var body := ChunkPackets(chunks);
    var s1 := RelayState(|d|, 0, s.documentData);
    StartRecordsSize(s, |d|);
    RunCons(s, StartPacket(|d|), body, StepOutcome(s1, None, Ok(())));
    ChunksAccumulate(s1, chunks);
    var r2 := Run(s1, body);
    var s3 := RelayState(0, 0, r2.0.documentData);
    EndPrints(r2.0);
    RunSnoc(s, [StartPacket(|d|)] + body, EndPacket(), StepOutcome(s3, Some(r2.0.documentData), Ok(())));
    assert Transfer(chunks) == [StartPacket(|d|)] + body + [EndPacket()];
    assert [] + [] + [r2.0.documentData] == [s.documentData + d];
  }

  /** Two runs back to back, each printing one document and zeroing both sizes. */
  lemma {:induction false} BackToBack(s: RelayState, t1: seq<seq<byte>>, t2: seq<seq<byte>>, d1: seq<byte>, d2: seq<byte>)
    requires Run(s, t1) == (RelayState(0, 0, d1), [d1])
    requires Run(RelayState(0, 0, d1), t2) == (RelayState(0, 0, d2), [d2])
    ensures Run(s, t1 + t2).1 == [d1, d2]
  {
    RunAppend(s, t1, t2);
  }

  /**
   * `documentData` is never cleared: of two documents sent one after the
   * other, the second print holds the first document's bytes in front of
   * its own (and both hold whatever was gathered before them, nothing from
   * the initial state).
   */
  lemma SecondPrintRepeatsFirst(s: RelayState, first: seq<seq<byte>>, second: seq<seq<byte>>)
    requires forall i :: 0 <= i < |first| ==> |first[i]| < TWO_32
    requires forall i :: 0 <= i < |second| ==> |second[i]| < TWO_32
    requires |Concat(first)| < TWO_32 && |Concat(second)| < TWO_32
    ensures Run(s, Transfer(first) + Transfer(second)).1
      == [s.documentData + Concat(first), s.documentData + Concat(first) + Concat(second)]
  {
    var d1 := s.documentData + Concat(first);
    TransferPrints(s, first);
    TransferPrints(RelayState(0, 0, d1), second);
    BackToBack(s, Transfer(first), Transfer(second), d1, d1 + Concat(second));
  }

  /** The relay handler installed on the connection, with its closure state as fields. */
  class PrintRelay {
    var documentSize: nat
    var downloadedSize: nat
    var documentData: seq<byte>
    /** The documents handed to `printDocument`, oldest first. */
    var printed: seq<seq<byte>>

    function State(): RelayState
      reads this
    {
      RelayState(documentSize, downloadedSize, documentData)
    }

    constructor ()
      ensures State() == INITIAL && printed == []
    {
      documentSize, downloadedSize, documentData := 0, 0, [];
      printed := [];
    }

    /** `onUnixRelayData(name, payload)`, as `Step` describes it. */
    method OnUnixRelayData(payload: seq<byte>) returns (r: Result<()>)
      modifies this
      ensures var o := Step(old(State()), payload);
        State() == o.state && r == o.result
        && printed == old(printed) + Printed(o)
    {
      var id := GetUint32(payload, 0);
      if id.Thrown? {
        return Thrown(id.error);
      }
      if id.value == PACKET_START {
        var size := GetUint32(payload, 4);
        if size.Thrown? {
          return Thrown(size.error);
        }
        documentSize := size.value;
        downloadedSize := 0;
      } else if id.value == PACKET_CHUNK {
        var chunkSize := GetUint32(payload, 4);
        if chunkSize.Thrown? {
          return Thrown(chunkSize.error);
        }
        var chunkData := payload[8..];
        downloadedSize := downloadedSize + chunkSize.value;
        documentData := documentData + chunkData;
      } else if id.value == PACKET_END {
        printed := printed + [documentData];
        downloadedSize := 0;
        documentSize := 0;
      }
      r := Ok(());
    }
  }
}

=== FILE: text.dfy ===
/**
 * The two pieces of JavaScript string semantics the source relies on:
 * `String(n)` of a non-negative integer number (its decimal digits), and the
 * comparison `a < b` of two strings, which `Array.prototype.sort` uses when it
 * is given no comparator (code unit by code unit, a proper prefix first).
 */
module Text {

  predicate IsDigit(c: char) {
    '0' <= c <= '9'
  }

  /** The digit character of `d`. */
  function Digit(d: nat): (c: char)
    requires d < 10
    ensures IsDigit(c) && c as int - '0' as int == d
  {
    ('0' as int + d) as char
  }

  /**
   * `String(n)` for a non-negative integer `n` that a JavaScript number holds
   * exactly and writes without an exponent (below 2^53): its shortest decimal
   * representation.
   */
  function Decimal(n: nat): (s: string)
    ensures 1 <= |s|
    ensures forall i :: 0 <= i < |s| ==> IsDigit(s[i])
    ensures (|s| == 1) == (n < 10)
    ensures n < 100 ==> |s| <= 2
    ensures n < 1000 ==> |s| <= 3
    decreases n
  {
    if n < 10 then [Digit(n)] else Decimal(n / 10) + [Digit(n % 10)]
  }

  /** The number written by a string of digits (the inverse of `Decimal`). */
  function DigitsValue(s: string): nat
    requires forall i :: 0 <= i < |s| ==> IsDigit(s[i])
  {
    if s == [] then 0 else 10 * DigitsValue(s[..|s| - 1]) + DigitValue(s[|s| - 1])
  }

  /** Reading back the decimal digits of `n` gives `n`. */
  lemma {:induction false} DecimalRoundTrip(n: nat)
    ensures DigitsValue(Decimal(n)) == n
    decreases n
  {
    if n >= 10 {
      var s := Decimal(n);
      assert s[..|s| - 1] == Decimal(n / 10);
      DecimalRoundTrip(n / 10);
    }
  }

  /** Different numbers have different decimal strings. */
  lemma DecimalInjective(a: nat, b: nat)
    requires Decimal(a) == Decimal(b)
    ensures a == b
  {
    DecimalRoundTrip(a);
    DecimalRoundTrip(b);
  }

  /** The number a digit character stands for. */
  function DigitValue(c: char): (d: nat)
    requires IsDigit(c)
    ensures d < 10
  {
    c as int - '0' as int
  }

  /** The decimal string of a number below 10 is its digit; below 100 it has two digits. */
  lemma DecimalSmall(n: nat)
    requires n < 100
    ensures n < 10 ==> Decimal(n) == [Digit(n)]
    ensures 10 <= n ==> Decimal(n) == [Digit(n / 10), Digit(n % 10)]
  {
  }

  /** The last two characters of `Decimal(n)`, for `n >= 10`, are the two digits of `n % 100`. */
  lemma {:induction false} DecimalLastTwo(n: nat)
    requires 10 <= n
    ensures var s := Decimal(n); s[|s| - 2..] == [Digit(n / 10 % 10), Digit(n % 10)]
  {
    var m := n / 10;
    var s := Decimal(n);
    var p := Decimal(m);
    assert s == p + [Digit(n % 10)];
    var last := Digit(m % 10);
    if m >= 10 {
      assert p == Decimal(m / 10) + [last];
    } else {
      assert p == [last];
    }
    assert s[|s| - 2..] == [p[|p| - 1], Digit(n % 10)];
  }

  /** A digit string before a non-digit separator cannot be a proper prefix of another such digit string. */
  lemma SeparatorNotEarlier(a: string, x: string, a2: string, x2: string, sep: char)
    requires forall i :: 0 <= i < |a2| ==> IsDigit(a2[i])
    requires !IsDigit(sep)
    requires a + [sep] + x == a2 + [sep] + x2
    ensures |a2| <= |a|
  {
    if |a| < |a2| {
      IndexBeforeSeparator(a2, sep, x2, |a|);
    }
  }

  lemma IndexBeforeSeparator(a: string, sep: char, x: string, i: nat)
    requires i < |a|
    ensures (a + [sep] + x)[i] == a[i]
  {
  }

  /** Digit strings followed by the same non-digit separator split the same way. */
  lemma SplitAtSeparator(a: string, x: string, a2: string, x2: string, sep: char)
    requires forall i :: 0 <= i < |a| ==> IsDigit(a[i])
    requires forall i :: 0 <= i < |a2| ==> IsDigit(a2[i])
    requires !IsDigit(sep)
    requires a + [sep] + x == a2 + [sep] + x2
    ensures a == a2 && x == x2
  {
    SeparatorNotEarlier(a, x, a2, x2, sep);
    SeparatorNotEarlier(a2, x2, a, x, sep);
    var s := a + [sep] + x;
    assert a == s[..|a|] && a2 == (a2 + [sep] + x2)[..|a|];
    assert x == s[|a| + 1..] && x2 == (a2 + [sep] + x2)[|a| + 1..];
  }

  /**
   * JavaScript's `a < b` on strings: the first differing character decides,
   * and a proper prefix is smaller. Characters here are compared as Unicode
   * scalar values, which agrees with JavaScript's UTF-16 code units on the
   * digit strings this model compares. (Dafny's `<` and `<=` on sequences
   * are the proper-prefix and prefix relations.)
   */
  predicate StrLess(a: string, b: string)
    ensures a < b ==> StrLess(a, b)
    ensures b <= a ==> !StrLess(a, b)
  {
    if |a| == 0 then |b| > 0
    else if |b| == 0 then false
    else if a[0] != b[0] then a[0] < b[0]
    else
      assert a < b ==> a[1..] < b[1..];
      assert b <= a ==> b[1..] <= a[1..];
      StrLess(a[1..], b[1..])
  }

  /**
   * When neither string is a prefix of the other, the first position where
   * they differ decides: `a` sorts first exactly when its character there is
   * the smaller one.
   */
  lemma {:induction false} StrLessFirstDifference(a: string, b: string, i: nat)
    requires i < |a| && i < |b| && a[..i] == b[..i] && a[i] != b[i]
    ensures StrLess(a, b) <==> a[i] < b[i]
    decreases i
  {
    if i > 0 {
      assert a[0] == a[..i][0] && b[0] == b[..i][0];
      assert a[1..][..i - 1] == a[..i][1..] && b[1..][..i - 1] == b[..i][1..];
      StrLessFirstDifference(a[1..], b[1..], i - 1);
    }
  }

  lemma {:induction false} StrLessIrreflexive(a: string)
    ensures !StrLess(a, a)
  {
    if |a| > 0 {
      StrLessIrreflexive(a[1..]);
    }
  }

  lemma {:induction false} StrLessTransitive(a: string, b: string, c: string)
    requires StrLess(a, b) && StrLess(b, c)
    ensures StrLess(a, c)
  {
    if |a| > 0 && |b| > 0 && |c| > 0 && a[0] == b[0] && b[0] == c[0] {
      StrLessTransitive(a[1..], b[1..], c[1..]);
    }
  }

  /** Two different strings are always ordered one way or the other. */
  lemma {:induction false} StrLessTotal(a: string, b: string)
    requires a != b
    ensures StrLess(a, b) || StrLess(b, a)
  {
    if |a| > 0 && |b| > 0 && a[0] == b[0] {
      assert a == [a[0]] + a[1..] && b == [b[0]] + b[1..];
      StrLessTotal(a[1..], b[1..]);
    }
  }

  lemma {:induction false} StrLessAsymmetric(a: string, b: string)
    requires StrLess(a, b)
    ensures !StrLess(b, a)
  {
    if |a| > 0 && |b| > 0 && a[0] == b[0] {
      StrLessAsymmetric(a[1..], b[1..]);
    }
  }
}

=== FILE: wrappers.dfy ===
/** Optional values, failures and list helpers shared by the modules of this model. */
module Wrappers {

  /** A value that may be absent (`null` or `undefined` in the source). */
  datatype Option<+T> = None | Some(value: T)

  /** The normal completion of an operation, or the exception it throws. */
  datatype Result<+T> = Ok(value: T) | Thrown(error: string)

  /** Returns the value held by `m` at `k`, or the empty list when `k` is no key of `m`. */
  function Lookup<K, V>(m: map<K, seq<V>>, k: K): (r: seq<V>)
    ensures k in m ==> r == m[k]
    ensures k !in m ==> r == []
  {
    if k in m then m[k] else []
  }

  /** Concatenation regroups freely. */
  lemma ConcatAssoc<T>(a: seq<T>, b: seq<T>, c: seq<T>)
    ensures a + (b + c) == (a + b) + c
  {
  }
}
